=== FILE: README.md ===
# Werewolf room engine in Dafny

This project models the engine of a multiplayer Werewolf (social deduction)
game. The whole game lives in one shared room document. The host's client
drives the phases (lobby, night, day, voting, final plea, results), and
every player's client writes its own intents: readiness, ballots, night
actions, chat, the hunter's shot, joining and leaving.

The model is a set of pure functions over an immutable `Room` record with a
`map<PlayerId, Player>` roster:

- `Model`: the entities and enumerations.
- `Deck`: the classic and custom role decks and the Fisher–Yates shuffle.
- `Tally`: the day-vote count, tie and winner.
- `Night`: the werewolf kill against the bodyguard, the seer and detective reveals, the witch's heal and poison, and the lovers' broken-heart rule.
- `Victory`: the villager and werewolf win rule.
- `Engine`: the phase advance with its night sub-steps and elimination bookkeeping, game start, lobby reset, and the phase timer.
- `Intents`: the guarded player writes.
- `View`: the game screen's helpers and the predicates that decide which requests the screen sends.
- `EngineProps` and `IntentProps`: lemmas relating these to one another.

A write that the source performs becomes `Applied(room')`. A write that it turns down with a message becomes `Refused(reason)`. A silent early return becomes `Ignored`. The clock (`now`, integer milliseconds) is a parameter. So are the random draws of the shuffle, the message id of a chat line, and the iteration order of a document map wherever that order matters.

## Model

| member | source | states |
|---|---|---|
| Model.MarkDead | src/state/room.tsx:819-822 | exactly the listed ids that have records become dead; every other field of every record, and the roster itself, is unchanged |
| Deck.FisherYates | src/state/room.tsx:104-111 | the Fisher–Yates loop (index `k` swapped with a drawn index at most `k`) returns a permutation of its input: same length, same multiset |
| Deck.Shuffle | src/state/room.tsx:104-111 | the shuffled copy is a permutation of the items, whatever the random draws |
| Deck.ClassicDeckComposition | src/state/room.tsx:113-126 | for every count of at least one the unshuffled classic deck has exactly `count` cards: `max(1, count/4)` werewolves, one of each special role from its threshold (seer 5, bodyguard 6, hunter 7, witch 8, fool 9, detective 10, silencer 11, cupid 12) and villagers for the rest |
| Deck.BuildRoleDeckComposition | src/state/room.tsx:113-126 | the dealt classic deck has `count` cards, the per-role counts of the classic ratio, and at least one werewolf |
| Deck.GetCustomRoleCounts | src/state/room.tsx:128-136 | the normalised counts list every role, with a missing or negative stored count read as zero |
| Deck.BuildCustomRoleDeck | src/state/room.tsx:138-155 | no deck iff the counts do not total the player count or hold no werewolf; a total mismatch is reported first and carries both numbers; a deck is a permutation of the expanded counts |
| Deck.CustomDeckContents | src/state/room.tsx:138-155 | a validated custom deck has one card per player and exactly the requested number of each role |
| Deck.StoredCustomDeck | src/state/room.tsx:128-155 | dealing from a room's stored counts gives one card per player and `max(0, stored)` cards of each role |
| Tally.Decide | src/state/room.tsx:186-196 | from a tally: nothing iff no non-skip entry; a tie without a target iff two entries share the top count; otherwise the unique entry with the strictly highest count |
| Tally.ComputeVoteResult | src/state/room.tsx:180-197 | the same three outcomes stated over the ballots: no result iff every ballot skips or there are none; the reported count is the maximum over non-skip targets; a tie iff two distinct targets reach it; a winner beats every other target strictly |
| Tally.TallyIndependentOfOrder | src/state/room.tsx:182-185 | the tally loop over the ballots, in any iteration order of the vote map, yields exactly the per-target ballot counts |
| Tally.VoteResultIndependentOfOrder | src/state/room.tsx:180-197 | the source's computation for any iteration order equals the order-free result |
| Tally.AnyTwoOrdersAgree | src/state/room.tsx:180-197 | two iteration orders of the same ballots never give different results |
| Night.ResolveMainNight | src/state/room.tsx:199-241 | the pending victim is the werewolf target unless the bodyguard protected that id; the seer learns an existing target's role (villager when unset); the detective's answer is "same team" iff both or neither target is a werewolf |
| Night.WitchActionOf | src/state/room.tsx:253-257 | a recorded heal is read as a heal even when a poison target is also present; a poison needs a target |
| Night.Dedup | src/state/room.tsx:304-307 | the set-then-array round trip keeps each element once, loses none, and leaves a list without repeats unchanged |
| Night.ResolveFinalNight | src/state/room.tsx:243-286 | a heal saves the victim only with the heal unused and a victim present; a poison kills only with the poison unused and no heal; exactly the unsaved victim and the poisoned id die, never both saved and poisoned, nobody twice, and only ids among the pending victim, the werewolf target and the poison target |
| Night.ApplyLoverDeaths | src/state/room.tsx:301-308 | unchanged unless exactly two lovers are bound; otherwise every input death is kept, nobody twice, nobody but the lovers is added, and each lover dies iff either lover was among the dead |
| Night.ApplyLoverDeathsIdempotent | src/state/room.tsx:301-308 | applying the broken-heart rule to its own result changes nothing |
| Night.LoverDeathOfOne | src/state/room.tsx:301-308 | a single lover's death takes exactly the partner along; a non-lover dies alone |
| Victory.ComputeWinner | src/state/room.tsx:288-299 | villagers win iff someone is alive and no living player is a werewolf; werewolves win iff a werewolf is alive and living werewolves are at least as many as the other living players; no winner otherwise, in particular when nobody is alive; the rule never names the Fool |
| Engine.NextPhase | src/state/room.tsx:165-178 | every successor is a timed phase and differs from a timed predecessor; the untimed lobby and results lead to night |
| Engine.Opening | src/state/room.tsx:762-771 | an advance first moves to the successor phase, clears both ballot maps, and sets the successor's full deadline |
| Engine.FirstHunter | src/state/room.tsx:906-909 | picks the first eliminated id that names a hunter; none iff no eliminated id does |
| Engine.Settle | src/state/room.tsx:906-930 | an eliminated hunter is recorded as owing a shot and suppresses the win check; otherwise a decided game goes to results with the winner and reason; a move into night without a win bumps the day count, resets the step to main and clears the night's actions |
| Engine.SpendCharges | src/state/room.tsx:824-835 | a spent charge stays spent; the heal is spent iff it already was or a heal was recorded with a victim; the poison iff it already was or a poison target was recorded |
| Engine.ResolveNight | src/state/room.tsx:811-848 | the night's deaths (after the witch and the lovers' rule) are marked dead and recorded; charges are spent; a protection is remembered; the actions and the witch turn are cleared; a silencer's target is muted for the current day (day one when the count is zero) |
| Engine.ExpireSilence | src/state/room.tsx:899-904 | a silence recorded for the current day is lifted at the day's end; any other is kept |
| Engine.AdvancePhase | src/state/room.tsx:758-933 | only a player flagged as host can advance; an advance is never refused, never adds or removes a player, never returns to the lobby, and is not held up by a pending hunter shot |
| Engine.AdvanceKeepsRoster | src/state/room.tsx:758-933 | every branch of the advance keeps the roster's keys and leaves the lobby |
| Engine.DeckFor | src/state/room.tsx:589-606 | the deck for a start: a classic room always gets the classic composition; a custom room gets the validated custom deck from its normalised counts; any deck has one card per player |
| Engine.Deal | src/state/room.tsx:630-635 | the i-th player of the enumeration gets the i-th card; everyone is alive, unready and seated; nothing else in a record changes |
| Engine.DealtCupid | src/state/room.tsx:610 | a player holds the cupid role after dealing iff the deck holds a cupid card |
| Engine.Started | src/state/room.tsx:603-635 | the started room: roster kept with each player's name, host flag and join time, cards dealt in enumeration order, everyone alive, unready and seated, day one of a night that opens on the cupid step if a cupid was dealt and on the main step otherwise, the night's full deadline, fresh witch charges; ballots, night actions, lovers, witch turn, last night, eliminated list, hunter debt, winner and reason, protection memory, silence, accused and chat are cleared, while the code, host id, mode and custom counts are kept |
| Engine.StartGame | src/state/room.tsx:577-638 | the checks in the source's order: nothing unless host, then too few players (fewer than four), then someone unready, then an invalid custom setup with its error; otherwise the started room |
| Engine.DistinctCardinality | src/state/room.tsx:579 | an enumeration of the roster has one entry per player, so the deck size is the player count |
| Engine.ResetLobby | src/state/room.tsx:935-966 | only the host resets; every per-game field is cleared (ballots, night actions and step, deadline, witch state and turn, lovers, hunter debt, winner and reason, last night, eliminated list, protection memory, accused and its count, silence), roles are taken back and everyone is alive, unready and seated, while the roster, chat, day count, code, host id, mode and custom counts are kept |
| Engine.Countdown | src/state/room.tsx:1098 | no countdown without a deadline; otherwise the seconds left rounded up and never negative: `c` seconds mean more than `c-1` and at most `c` seconds remain |
| Engine.AutoAdvance | src/state/room.tsx:422-429 | the host's client advances exactly when a timed phase's deadline has passed, and then the countdown reads zero |
| Engine.ArmPhaseTimer | src/state/room.tsx:406-420 | the host's client sets a deadline only for a timed phase that lacks one, and sets that phase's full length |
| Intents.ToggleReady | src/state/room.tsx:564-575 | a player in the room flips only their own ready flag; an absent player is refused |
| Intents.SetVote | src/state/room.tsx:640-647 | a player in the room replaces only their own ballot, in any phase; nobody else's ballot changes |
| Intents.SetFinalVote | src/state/room.tsx:662-671 | a ballot is recorded iff the voter is alive, the phase is the final plea and the voter is not the accused |
| Intents.Permitted | src/state/room.tsx:679-696 | only the keys the role table allows the player's role survive, with their values |
| Intents.Merge | src/state/room.tsx:705-711 | each permitted key is written and every other night action is kept |
| Intents.SetNightAction | src/state/room.tsx:673-712 | recorded iff the player is alive in the main night step, some key is permitted, the bodyguard does not repeat last night's protection, and the silencer picks another living player; only the permitted keys change |
| Intents.SetWitchAction | src/state/room.tsx:714-739 | only a living witch in her step; a heal needs an unused heal and a victim, a poison an unused poison and a living target; the new choice replaces the old, so heal and poison are never both recorded; a pass, a heal with an unused heal and a victim, and a poison with an unused poison and a living target always go through |
| Intents.SetCupidAction | src/state/room.tsx:741-756 | recorded iff a living cupid in the cupid step names one or two distinct existing players |
| Intents.Trim | src/state/room.tsx:1034 | the trimmed text neither starts nor ends with whitespace, and is empty iff the input is all whitespace |
| Intents.TrimIsSlice | src/state/room.tsx:1034 | the trimmed text is a slice of the input with only whitespace cut off at either end |
| Intents.SendChat | src/state/room.tsx:1016-1047 | refusals in the source's order: the dead, then the silenced by day or in the plea, then non-werewolves at night; a blank message is dropped; otherwise exactly one message is appended, trimmed, from the sender, and for werewolves only iff it is night |
| Intents.SendHunterShot | src/state/room.tsx:1065-1096 | applies iff the shooter owes the shot and the target is alive; the target dies with a lover, the debt is cleared, the dead are appended to the eliminated list, and a decided game goes to results with the winner and its reason; an undecided one keeps its phase, deadline, winner and reason; no other field changes |
| Intents.Arrival | src/state/room.tsx:539-551 | a newcomer is a spectator iff the game has left the lobby, and alive iff it has not |
| Intents.JoinRoom | src/state/room.tsx:513-562 | refusals in order: no name, no code, no room with that code; otherwise the player is added as a non-host |
| Intents.RejoinRoom | src/state/room.tsx:989-1014 | the typed name or else the stored one is required; the returning player is host iff the room names them as host |
| Intents.LeaveRoom | src/state/room.tsx:968-987 | the leaver's record is removed; a departing host hands over to the first remaining player of the enumeration; nothing else changes |
| Intents.RemovePlayer | src/state/room.tsx:1049-1063 | only the host removes another existing player; removing the named host makes the remover host |
| Intents.LeaveKeepsOneHost | src/state/room.tsx:968-987 | while anyone stays behind, a departure leaves exactly one player flagged as host, the one the room names |
| Intents.RejoinKeepsOneHost | src/state/room.tsx:1001-1008 | a rejoin keeps exactly one host, the one the room names, because the returning record is host iff `hostId` names it |
| Intents.RemoveKeepsOneHost | src/state/room.tsx:1049-1063 | a removal leaves exactly one host, the one the room names |
| EngineProps.CupidStepFlow | src/state/room.tsx:776-791 | the night stays on the cupid step until exactly two lovers are chosen, then binds them and opens the main step; nobody dies |
| EngineProps.WitchStepFlow | src/state/room.tsx:793-809 | after the main step the witch gets her own step iff a living witch has a charge left, and she is shown the main step's victim |
| EngineProps.NightResolutionFlow | src/state/room.tsx:811-930 | a resolved night kills exactly its deaths and leads to day or results; results iff no hunter died and the game is decided; a dead hunter owes a shot |
| EngineProps.ChargesMonotone | src/state/room.tsx:824-835 | no advance ever makes a spent witch charge unused again |
| EngineProps.VotingFlow | src/state/room.tsx:851-866 | the vote leads to the final plea iff there is a definite target, carrying its count; otherwise back to night with the day count and night step unchanged and no win check |
| EngineProps.VotingUsesAnyOrderTally | src/state/room.tsx:851-853 | the plea starts iff the source's tally, for any iteration order, names a definite target |
| EngineProps.FinalKillRule | src/state/room.tsx:868-892 | the accused dies iff kill ballots strictly outnumber save ballots, so a tie survives; nobody but the accused and their lover changes |
| EngineProps.FoolWinsAtOnce | src/state/room.tsx:880-889 | a condemned Fool ends the game with the Fool's win at once, ahead of the hunter rule and the normal win check |
| EngineProps.HunterDefersResults | src/state/room.tsx:906-920 | a condemned hunter, or a hunter taken along as a lover, owes a shot and the game goes on to night |
| EngineProps.FinalToNightBumpsDay | src/state/room.tsx:893-929 | the plea ends in night or results; a night that follows has the next day count, the main step and cleared actions |
| EngineProps.SilenceExpiresAtDayEnd | src/state/room.tsx:899-904 | the day's end lifts a silence for this day and keeps any other; the day leads to voting or results |
| EngineProps.PendingShotDoesNotBlock | src/state/room.tsx:758-760 | the host's advance applies while a hunter's shot is still owed |
| IntentProps.ToggleReadyTwice | src/state/room.tsx:564-575 | toggling readiness twice restores the room |
| IntentProps.LastBallotWins | src/state/room.tsx:640-647 | a later ballot by the same voter replaces the earlier one |
| IntentProps.LastFinalBallotWins | src/state/room.tsx:662-671 | a later final-plea ballot by the same voter replaces the earlier one |
| IntentProps.FinalCountAfterBallot | src/state/room.tsx:666-669 | writing one ballot changes a choice's count by losing the voter's earlier ballot if it was that choice and gaining the new one if it is |
| IntentProps.FinalBallotMovesTally | src/state/room.tsx:662-671 | a final-plea ballot moves the kill and save counts by that one voter only, so a kill ballot never spares a condemned accused and a save ballot never condemns a spared one |
| IntentProps.BallotMovesOneVoter | src/state/room.tsx:640-647 | a ballot adds its voter to the chosen target's supporters and removes them from every other target's |
| IntentProps.NightActionIdempotent | src/state/room.tsx:673-712 | submitting the same night action twice is the same as submitting it once |
| IntentProps.WitchChoiceIsResolved | src/state/room.tsx:714-739 | the night resolution reads back exactly the heal, poison or pass the witch recorded |
| IntentProps.CupidChoiceThenAdvance | src/state/room.tsx:776-791 | one named lover keeps the night on the cupid step; two bind the lovers and open the main step |
| IntentProps.HunterShootsOnce | src/state/room.tsx:1065-1081 | after a shot lands, a second shot by the same hunter is ignored |
| IntentProps.LeaveUndoesArrival | src/state/room.tsx:968-987 | removing a non-host record that was just added restores the roster |
| IntentProps.JoinThenLeave | src/state/room.tsx:968-987 | a newcomer who joins and then leaves restores the roster |
| IntentProps.ResetLobbyIdempotent | src/state/room.tsx:935-966 | resetting a lobby that was just reset changes nothing |
| IntentProps.ArmedTimerCountsDown | src/state/room.tsx:406-429 | a freshly armed timer shows the phase's full length, does not fire at once, and fires at any time from its deadline on |
| View.PickFrom | src/pages/GamePage.tsx:33-35 | a seed always picks an element of the (non-empty) option list |
| View.AvatarSeed | src/pages/GamePage.tsx:37-43 | the avatar hash loop computes the rolling hash of the whole id, and the result always lies in [0, 10000) |
| View.HashOfAppend | src/pages/GamePage.tsx:39-41 | one more character folds into the hash as `(hash * 31 + code) % 10000` and stays below 10000 |
| View.StrLessTotal | src/pages/GamePage.tsx:206 | any two distinct ids are ordered one way or the other |
| View.StrLessTransitive | src/pages/GamePage.tsx:206 | the id order is transitive |
| View.BeforeTotal | src/pages/GamePage.tsx:202-208 | the comparator orders any two distinct players exactly one way |
| View.BeforeTransitive | src/pages/GamePage.tsx:202-208 | the comparator is transitive |
| View.Insert | src/pages/GamePage.tsx:204-207 | inserting into a sorted list keeps it sorted and adds exactly the one player |
| View.SortPlayers | src/pages/GamePage.tsx:202-208 | the sort returns a sorted permutation of its input |
| View.OrderedPlayers | src/pages/GamePage.tsx:202-208 | the shown list holds every player exactly once, earliest joiner first, equal join times by id |
| View.SortedUnique | src/pages/GamePage.tsx:202-208 | two sorted arrangements of the same players are the same list |
| View.OrderedPlayersIndependentOfOrder | src/pages/GamePage.tsx:202-208 | the shown list does not depend on the order the roster map is read in |
| View.StartGateAgreesWithDeck | src/pages/GamePage.tsx:214-226 | the start button is enabled iff the engine would find a valid deck for that many players |
| View.CanChatAgreesWithSendChat | src/pages/GamePage.tsx:238 | for a non-blank message the engine posts it iff the chat box is enabled and the player is not silenced today |
| View.VisibleMessages | src/pages/GamePage.tsx:242-244 | a werewolf sees every message; anyone else sees exactly the messages for everyone (a missing audience counts) |
| View.VisibleMessagesAppend | src/pages/GamePage.tsx:242-244 | a message appended to the chat is appended to a viewer's feed iff the viewer may see it, and the earlier feed is kept in order, so the feed is the order-preserving filter of the chat |
| View.NightChatHidden | src/pages/GamePage.tsx:242-244 | a message posted at night is shown to werewolves and hidden from everyone else |
| View.CardClick | src/pages/GamePage.tsx:370-422 | a dead card or a disabled viewer sends nothing; in voting one's own card sends a skip and another sends that id; at night a werewolf's click on another player sends the werewolf target, a bodyguard's the protection unless it repeats last night's (then nothing), a seer's click on another player the inspection, and one's own card nothing; outside voting and night the hunter owing a shot shoots the clicked other player; a night click sends one key |
| View.ClickAgreesWithEngine | src/pages/GamePage.tsx:398-422 | every ballot the screen sends is recorded; a night pick is recorded iff the room is really in its main step; a seated hunter's shot always lands |

## Left out

- Firestore I/O is not modelled: reads, `updateDoc`, `setDoc`, `onSnapshot` and `arrayUnion`. Each write is one pure room update, and `deleteField` becomes `None`, `[]` or an absent key. `updatedAt` timestamps are not modelled.
- Concurrency is not modelled. Several clients writing the same document at once is outside a single-threaded model.
- `createRoom`, `generateRoomCode`, `setGameMode`, `setCustomRoleCount` and `updatePlayerName` are not part of this model. They are setup writes outside the game rules.
- React state, `localStorage` identity, and the auto-rejoin effect at src/state/room.tsx:383-404 are not modelled. They are client plumbing.
- Randomness: `Math.random` in the shuffle is replaced by a list of draws. Only the permutation property is stated, not uniformity.
- `crypto.randomUUID` for chat message ids is a parameter, and so is `Date.now`.
- `joinRoom` and `rejoinRoom` write the new record with `setDoc(..., { merge: true })` under a dotted key. Firestore stores such a key as a literal field name. The model follows the evident intent instead and adds the record to the roster.
- Model.MarkDead: a dotted-path write for an id without a record would create a partial record in Firestore. The model skips such ids.
- `undefined` values inside written objects (for example a missing `pendingVictimId` in the witch turn) are assumed dropped by the store.
- Counts are integers. `Number.isFinite`, `Math.floor` and non-numeric stored counts in the custom-role normalisation are not modelled.
- `String.prototype.localeCompare` on ids is modelled as code-point lexicographic order. `charCodeAt` is modelled as the code point of a `char`, which equals the UTF-16 unit for ids in the Basic Multilingual Plane.
- `toUpperCase` of the typed room code is not modelled. The room found by the code is given as a parameter.
- Intents.JoinRoom: the lookup by code is a parameter, so the contract does not state that the code matches the room found.
- The `NightKey` update omits `witchHeal`, `witchPoisonTarget` and `cupidLoverIds`. No role's allowed-key set contains them, so `setNightAction` always discards them.
- View.PickFrom: states only that an element of the list is picked, not which one.
- View.CardClick: the screen's night check reads any step but the witch's as the main step, cupid included. View.ClickAgreesWithEngine states that the engine ignores such clicks in the cupid step.
- Rendering, layout and styling in the pages, the theme toggle and the Tailwind configuration are not modelled. So is `src/lib/types.ts`, whose enumerations are stale; the roles and phases come from src/state/room.tsx.
- Two places where the code differs from the obvious rule set are modelled as written:
  - a vote without a definite target returns early to night, with no day-count bump, no win check and the plea's deadline;
  - advancing from the lobby or from results is not guarded, and moves to night (or to results when the win rule already holds).

=== FILE: deck.dfy ===
/** Role decks: the classic player-count ratio, explicit custom counts, and
    the Fisher–Yates shuffle applied to both before roles are dealt. */
module Deck {
  import opened Wrappers
  import opened Model

  /** `n` copies of `x`. */
  function Repeat<T>(x: T, n: nat): (r: seq<T>)
    ensures |r| == n
    ensures forall i :: 0 <= i < n ==> r[i] == x
  {
    if n == 0 then [] else [x] + Repeat(x, n - 1)
  }

  lemma {:induction false} RepeatMultiset<T>(x: T, n: nat, y: T)
    ensures multiset(Repeat(x, n))[y] == if x == y then n else 0
  {
    if n > 0 {
      RepeatMultiset(x, n - 1, y);
      assert Repeat(x, n) == [x] + Repeat(x, n - 1);
    }
  }

  function Max(a: int, b: int): int {
    if a >= b then a else b
  }

  // ---------------------------------------------------------------------------
  // Shuffle
  // ---------------------------------------------------------------------------

  /** `s` with the elements at `i` and `j` exchanged. */
  function Swap<T>(s: seq<T>, i: nat, j: nat): (r: seq<T>)
    requires i < |s| && j < |s|
    ensures |r| == |s| && multiset(r) == multiset(s)
  {
    s[i := s[j]][j := s[i]]
  }

  /** Steps `i`, `i - 1`, ..., `1` of the Fisher–Yates loop. Step `k` swaps
      position `k` with position `draws[k] % (k + 1)`, which stands for the
      random index `Math.floor(Math.random() * (k + 1))`; a step without a
      draw swaps nothing. */
  function FisherYates<T>(copy: seq<T>, i: nat, draws: seq<nat>): (r: seq<T>)
    requires i < |copy|
    ensures |r| == |copy|
    ensures multiset(r) == multiset(copy)
    decreases i
  {
    if i == 0 then copy
    else
      var j := if i < |draws| then draws[i] % (i + 1) else i;
      FisherYates(Swap(copy, i, j), i - 1, draws)
  }

  /** A shuffled copy of `items`, driven by the random draws `draws`. */
  function Shuffle<T>(items: seq<T>, draws: seq<nat>): (r: seq<T>)
    ensures |r| == |items|
    ensures multiset(r) == multiset(items)
  {
    if |items| == 0 then items else FisherYates(items, |items| - 1, draws)
  }

  // ---------------------------------------------------------------------------
  // Classic deck
  // ---------------------------------------------------------------------------

  /** Werewolves in a classic deck: `max(1, floor(count / 4))`. */
  function ClassicWerewolves(count: nat): nat {
    if count / 4 >= 1 then count / 4 else 1
  }

  /** The special roles pushed after the werewolves, in push order. */
  function ClassicSpecials(count: nat): seq<Role> {
    (if count >= 5 then [Seer] else [])
    + (if count >= 6 then [Bodyguard] else [])
    + (if count >= 7 then [Hunter] else [])
    + (if count >= 8 then [Witch] else [])
    + (if count >= 9 then [Fool] else [])
    + (if count >= 10 then [Detective] else [])
    + (if count >= 11 then [Silencer] else [])
    + (if count >= 12 then [Cupid] else [])
  }

  /** The classic deck before shuffling: werewolves, specials, then villagers
      until the deck has `count` cards. */
  function ClassicDeck(count: nat): seq<Role> {
    var base := Repeat(Werewolf, ClassicWerewolves(count)) + ClassicSpecials(count);
    base + Repeat(Villager, if |base| < count then count - |base| else 0)
  }

  /** The shuffled classic deck for `count` players. */
  function BuildRoleDeck(count: nat, draws: seq<nat>): (deck: seq<Role>)
    ensures multiset(deck) == multiset(ClassicDeck(count))
  {
    Shuffle(ClassicDeck(count), draws)
  }

  /** The smallest player count at which a classic deck holds one card of a
      special role; `None` for werewolf and villager. */
  function SpecialThreshold(r: Role): Option<nat> {
    match r
    case Seer => Some(5)
    case Bodyguard => Some(6)
    case Hunter => Some(7)
    case Witch => Some(8)
    case Fool => Some(9)
    case Detective => Some(10)
    case Silencer => Some(11)
    case Cupid => Some(12)
    case _ => None
  }

  /** How many of the eight special roles a classic deck of `count` holds. */
  function SpecialCount(count: nat): nat {
    if count <= 4 then 0 else if count >= 12 then 8 else count - 4
  }

  /** One card of a special role from its threshold on, none before. */
  function SpecialQuota(count: nat, r: Role): nat {
    match SpecialThreshold(r)
    case Some(t) => if count >= t then 1 else 0
    case None => 0
  }

  /** How many cards of role `r` a classic deck for `count` players holds,
      stated from the rules: the werewolf ratio, one card of each special
      role from its threshold on, villagers for the rest. */
  function ClassicQuota(count: nat, r: Role): int {
    if r == Werewolf then ClassicWerewolves(count)
    else if r == Villager then count - ClassicWerewolves(count) - SpecialCount(count)
    else SpecialQuota(count, r)
  }

  /** The eight special roles in push order. */
  const SpecialOrder: seq<Role> := [Seer, Bodyguard, Hunter, Witch, Fool, Detective, Silencer, Cupid]

  lemma SpecialsArePrefix(count: nat)
    ensures ClassicSpecials(count) == SpecialOrder[..SpecialCount(count)]
  {
    var all := SpecialOrder;
    if count <= 4 {
    } else if count == 5 {
      assert all[..1] == [Seer];
    } else if count == 6 {
      assert all[..2] == [Seer, Bodyguard];
    } else if count == 7 {
      assert all[..3] == [Seer, Bodyguard, Hunter];
    } else if count == 8 {
      assert all[..4] == [Seer, Bodyguard, Hunter, Witch];
    } else if count == 9 {
      assert all[..5] == [Seer, Bodyguard, Hunter, Witch, Fool];
    } else if count == 10 {
      assert all[..6] == [Seer, Bodyguard, Hunter, Witch, Fool, Detective];
    } else if count == 11 {
      assert all[..7] == [Seer, Bodyguard, Hunter, Witch, Fool, Detective, Silencer];
    } else {
      assert all[..8] == all;
    }
  }

  /** The position of a special role in `SpecialOrder`. */
  function SpecialIndex(r: Role): nat
    requires SpecialThreshold(r).Some?
    ensures SpecialIndex(r) < |SpecialOrder| && SpecialOrder[SpecialIndex(r)] == r
    ensures SpecialThreshold(r) == Some(SpecialIndex(r) + 5)
  {
    match r
    case Seer => 0
    case Bodyguard => 1
    case Hunter => 2
    case Witch => 3
    case Fool => 4
    case Detective => 5
    case Silencer => 6
    case Cupid => 7
  }

  lemma SpecialRoleCount(count: nat, r: Role)
    ensures multiset(SpecialOrder[..SpecialCount(count)])[r] == SpecialQuota(count, r)
  {
    var n := SpecialCount(count);
    if SpecialThreshold(r).Some? {
      CountInPrefix(SpecialOrder, n, r, SpecialIndex(r));
    } else {
      forall i | 0 <= i < n ensures SpecialOrder[..n][i] != r {
        assert SpecialThreshold(SpecialOrder[i]).Some?;
      }
      assert r !in multiset(SpecialOrder[..n]);
    }
  }

  lemma SpecialsComposition(count: nat)
    ensures |ClassicSpecials(count)| == SpecialCount(count)
    ensures forall r :: multiset(ClassicSpecials(count))[r] == SpecialQuota(count, r)
  {
    SpecialsArePrefix(count);
    forall r ensures multiset(SpecialOrder[..SpecialCount(count)])[r] == SpecialQuota(count, r) {
      SpecialRoleCount(count, r);
    }
  }

  /** Occurrences of `x` in a prefix of a distinct sequence that holds it at `k`. */
  lemma {:induction false} CountInPrefix(s: seq<Role>, n: nat, x: Role, k: nat)
    requires n <= |s| && k < |s| && s[k] == x && Distinct(s)
    ensures multiset(s[..n])[x] == if k < n then 1 else 0
  {
    if n > 0 {
      CountInPrefix(s, n - 1, x, k);
      assert s[..n] == s[..n - 1] + [s[n - 1]];
    }
  }

  /** The classic deck as its three runs: werewolves, specials, villagers. */
  lemma ClassicDeckRuns(count: nat)
    requires count >= 1
    ensures SpecialCount(count) + ClassicWerewolves(count) <= count
    ensures ClassicDeck(count)
            == Repeat(Werewolf, ClassicWerewolves(count)) + ClassicSpecials(count)
               + Repeat(Villager, count - ClassicWerewolves(count) - SpecialCount(count))
  {
    SpecialsComposition(count);
  }

  lemma ClassicRoleCount(count: nat, r: Role)
    requires count >= 1
    ensures multiset(ClassicDeck(count))[r] == ClassicQuota(count, r)
  {
    var w := ClassicWerewolves(count);
    var v := count - w - SpecialCount(count);
    var sp := ClassicSpecials(count);
    ClassicDeckRuns(count);
    SpecialRoleCount(count, r);
    SpecialsArePrefix(count);
    RepeatMultiset(Werewolf, w, r);
    RepeatMultiset(Villager, v, r);
    var x, y := Repeat(Werewolf, w), Repeat(Villager, v);
    var d := ClassicDeck(count);
    assert d == x + sp + y;
    assert multiset(d) == multiset(x) + multiset(sp) + multiset(y);
    var a, b, c := multiset(x)[r], multiset(sp)[r], multiset(y)[r];
    assert multiset(d)[r] == a + b + c;
    if r == Werewolf {
      assert b == 0 && c == 0;
    } else if r == Villager {
      assert a == 0 && b == 0;
    } else {
      assert a == 0 && c == 0;
    }
  }

  /** For every player count of at least one, the classic deck has exactly
      `count` cards and holds each role exactly as often as the rules say. */
  lemma ClassicDeckComposition(count: nat)
    requires count >= 1
    ensures |ClassicDeck(count)| == count
    ensures forall r :: multiset(ClassicDeck(count))[r] == ClassicQuota(count, r)
  {
    ClassicDeckRuns(count);
    SpecialsComposition(count);
    forall r ensures multiset(ClassicDeck(count))[r] == ClassicQuota(count, r) {
      ClassicRoleCount(count, r);
    }
  }

  /** The dealt classic deck: `count` cards with the classic composition. */
  lemma BuildRoleDeckComposition(count: nat, draws: seq<nat>)
    requires count >= 1
    ensures |BuildRoleDeck(count, draws)| == count
    ensures forall r :: multiset(BuildRoleDeck(count, draws))[r] == ClassicQuota(count, r)
    ensures multiset(BuildRoleDeck(count, draws))[Werewolf] >= 1
  {
    ClassicDeckComposition(count);
  }

  // ---------------------------------------------------------------------------
  // Custom deck
  // ---------------------------------------------------------------------------

  /** The count recorded for `r`, reading a missing entry as zero. */
  function CountOf(counts: map<Role, int>, r: Role): int {
    if r in counts then counts[r] else 0
  }

  /** Sum of the recorded counts of `roles`. */
  function TotalOf(counts: map<Role, int>, roles: seq<Role>): int {
    if roles == [] then 0 else CountOf(counts, roles[0]) + TotalOf(counts, roles[1..])
  }

  /** `counts[r]` copies of each role of `roles`, in that order; a count below
      one yields no copies. */
  function Expand(counts: map<Role, int>, roles: seq<Role>): seq<Role> {
    if roles == [] then []
    else Repeat(roles[0], Max(0, CountOf(counts, roles[0])) as nat) + Expand(counts, roles[1..])
  }

  lemma AllRolesListed(r: Role)
    ensures r in RoleOrder
  {
    match r
    case Werewolf => assert RoleOrder[0] == r;
    case Seer => assert RoleOrder[1] == r;
    case Bodyguard => assert RoleOrder[2] == r;
    case Witch => assert RoleOrder[3] == r;
    case Hunter => assert RoleOrder[4] == r;
    case Fool => assert RoleOrder[5] == r;
    case Detective => assert RoleOrder[6] == r;
    case Silencer => assert RoleOrder[7] == r;
    case Cupid => assert RoleOrder[8] == r;
    case Villager => assert RoleOrder[9] == r;
  }

  /** Stored custom counts normalised: one entry per role, a missing or
      negative count read as zero. `StoredCustomDeck` states what dealing
      from these counts yields. */
  function GetCustomRoleCounts(raw: map<Role, int>): (counts: map<Role, int>)
    ensures forall r :: r in counts && counts[r] == Max(0, CountOf(raw, r))
  {
    var counts := map r | r in RoleOrder :: Max(0, CountOf(raw, r));
    assert forall r :: r in counts by {
      forall r ensures r in counts {
        AllRolesListed(r);
      }
    }
    counts
  }

  /** Validates explicit counts against the player count, then expands and
      shuffles them. The total is checked before the werewolf count. */
  function BuildCustomRoleDeck(playersCount: nat, counts: map<Role, int>, draws: seq<nat>)
    : (r: Result<seq<Role>, DeckError>)
    ensures r.Err? <==> TotalOf(counts, RoleOrder) != playersCount || CountOf(counts, Werewolf) < 1
    ensures TotalOf(counts, RoleOrder) != playersCount
            ==> r == Err(TotalMismatch(playersCount, TotalOf(counts, RoleOrder)))
    ensures TotalOf(counts, RoleOrder) == playersCount && CountOf(counts, Werewolf) < 1
            ==> r == Err(NoWerewolf)
    ensures r.Ok? ==> multiset(r.value) == multiset(Expand(counts, RoleOrder))
  {
    var total := TotalOf(counts, RoleOrder);
    if total != playersCount then Err(TotalMismatch(playersCount, total))
    else if CountOf(counts, Werewolf) < 1 then Err(NoWerewolf)
    else Ok(Shuffle(Expand(counts, RoleOrder), draws))
  }

  lemma {:induction false} ExpandMultiset(counts: map<Role, int>, roles: seq<Role>, r: Role)
    requires Distinct(roles)
    ensures multiset(Expand(counts, roles))[r] == if r in roles then Max(0, CountOf(counts, r)) else 0
  {
    if roles != [] {
      assert Distinct(roles[1..]);
      ExpandMultiset(counts, roles[1..], r);
      RepeatMultiset(roles[0], Max(0, CountOf(counts, roles[0])) as nat, r);
      assert roles == [roles[0]] + roles[1..];
      assert r == roles[0] ==> r !in roles[1..];
    }
  }

  lemma {:induction false} ExpandLength(counts: map<Role, int>, roles: seq<Role>)
    requires forall i :: 0 <= i < |roles| ==> CountOf(counts, roles[i]) >= 0
    ensures |Expand(counts, roles)| == TotalOf(counts, roles)
  {
    if roles != [] {
      ExpandLength(counts, roles[1..]);
    }
  }

  lemma RoleOrderDistinct()
    ensures Distinct(RoleOrder)
  {
  }

  /** Copies of `r` in the expansion of `counts` over the declared order. */
  lemma ExpandedRoleCount(counts: map<Role, int>, r: Role)
    ensures multiset(Expand(counts, RoleOrder))[r] == Max(0, CountOf(counts, r))
  {
    AllRolesListed(r);
    RoleOrderDistinct();
    ExpandMultiset(counts, RoleOrder, r);
  }

  /** A custom deck that validates holds exactly the requested counts and so
      one card per player, provided no count is negative (normalised counts
      never are). */
  lemma CustomDeckContents(playersCount: nat, counts: map<Role, int>, draws: seq<nat>)
    requires forall r :: CountOf(counts, r) >= 0
    requires BuildCustomRoleDeck(playersCount, counts, draws).Ok?
    ensures |BuildCustomRoleDeck(playersCount, counts, draws).value| == playersCount
    ensures forall r :: multiset(BuildCustomRoleDeck(playersCount, counts, draws).value)[r] == CountOf(counts, r)
  {
    var deck := BuildCustomRoleDeck(playersCount, counts, draws).value;
    assert multiset(deck) == multiset(Expand(counts, RoleOrder));
    ExpandLength(counts, RoleOrder);
    forall r ensures multiset(deck)[r] == CountOf(counts, r) {
      ExpandedRoleCount(counts, r);
    }
  }

  /** The deck dealt from the stored counts of a custom room: when it
      validates it has one card per player and `max(0, stored)` cards of each
      role. */
  lemma StoredCustomDeck(playersCount: nat, raw: map<Role, int>, draws: seq<nat>)
    requires BuildCustomRoleDeck(playersCount, GetCustomRoleCounts(raw), draws).Ok?
    ensures |BuildCustomRoleDeck(playersCount, GetCustomRoleCounts(raw), draws).value| == playersCount
    ensures forall r :: multiset(BuildCustomRoleDeck(playersCount, GetCustomRoleCounts(raw), draws).value)[r]
                        == Max(0, CountOf(raw, r))
  {
    CustomDeckContents(playersCount, GetCustomRoleCounts(raw), draws);
  }
}

=== FILE: engine.dfy ===
/** The host-driven state machine over the room document: the phase
    successor, phase advancement with the night sub-steps and the
    elimination bookkeeping, game start and lobby reset, and the phase timer
    arithmetic. Every transition is a pure `Room -> Room` update; the clock
    is the parameter `now` in integer milliseconds. */
module Engine {
  import opened Wrappers
  import opened Model
  import opened Deck
  import opened Tally
  import opened Night
  import opened Victory

  // ---------------------------------------------------------------------------
  // Phase successor and deadlines
  // ---------------------------------------------------------------------------

  /** True iff the phase runs against a deadline. */
  predicate Timed(p: Phase) {
    PhaseSeconds(p).Some?
  }

  /** The phase successor (room.tsx:165-178): the day cycle night, day,
      voting, final; the untimed lobby and results both lead into a night. */
  function NextPhase(p: Phase): (q: Phase)
    ensures Timed(q)
    ensures Timed(p) ==> q != p
    ensures !Timed(p) ==> q == Night
  {
    match p
    case Night => Day
    case Day => Voting
    case Voting => Final
    case Final => Night
    case _ => Night
  }

  /** The deadline of a timed phase that starts at `now`. */
  function Deadline(now: int, p: Phase): (t: int)
    requires Timed(p)
    ensures t > now
    ensures t - now == PhaseSeconds(p).value * 1000
  {
    now + PhaseSeconds(p).value * 1000
  }

  /** The fields every advance writes first (room.tsx:762-771): the successor
      phase, both ballot maps cleared, and a fresh deadline. */
  function Opening(room: Room, now: int): (u: Room)
    ensures u.status == NextPhase(room.status)
    ensures u.votes == map[] && u.finalVotes == map[]
    ensures u.phaseEndsAt == Some(Deadline(now, u.status))
    ensures u == room.(status := u.status, votes := map[], finalVotes := map[], phaseEndsAt := u.phaseEndsAt)
  {
    var next := NextPhase(room.status);
    room.(status := next, votes := map[], finalVotes := map[], phaseEndsAt := Some(Deadline(now, next)))
  }

  // ---------------------------------------------------------------------------
  // Shared bookkeeping
  // ---------------------------------------------------------------------------

  /** True iff a living witch exists and at least one of her charges is
      unused (room.tsx:794-796). */
  predicate WitchCanAct(players: map<PlayerId, Player>, charges: WitchState) {
    (exists id :: id in players && IsAliveIn(players, id) && HasRole(players, id, Witch))
    && (!charges.healUsed || !charges.poisonUsed)
  }

  /** The first eliminated id whose player is a hunter (room.tsx:906-909). */
  function FirstHunter(players: map<PlayerId, Player>, eliminated: seq<PlayerId>): (r: Option<PlayerId>)
    ensures r.None? <==> forall id :: id in eliminated ==> !HasRole(players, id, Hunter)
    ensures r.Some? ==> HasRole(players, r.value, Hunter)
    ensures r.Some? ==>
      exists i :: 0 <= i < |eliminated| && eliminated[i] == r.value && (forall j :: 0 <= j < i ==> !HasRole(players, eliminated[j], Hunter))
  {
    if eliminated == [] then None
    else if HasRole(players, eliminated[0], Hunter) then
      Some(eliminated[0])
    else
      var rest := FirstHunter(players, eliminated[1..]);
      assert forall id :: id in eliminated ==> id == eliminated[0] || id in eliminated[1..];
      if rest.Some? then
        var i :| 0 <= i < |eliminated[1..]| && eliminated[1..][i] == rest.value &&
          forall j :: 0 <= j < i ==> !HasRole(players, eliminated[1..][j], Hunter);
        assert eliminated[i + 1] == rest.value;
        assert forall j :: 0 <= j < i + 1 ==> !HasRole(players, eliminated[j], Hunter) by {
          forall j | 0 <= j < i + 1 ensures !HasRole(players, eliminated[j], Hunter) {
            if j > 0 {
              assert eliminated[j] == eliminated[1..][j - 1];
            }
          }
        }
        rest
      else
        rest
  }

  /** `(dayCount || 1) + 1`: the day number after a completed night. */
  function NextDayCount(dayCount: nat): (d: nat)
    ensures d >= 2
    ensures dayCount >= 1 ==> d == dayCount + 1
  {
    (if dayCount == 0 then 1 else dayCount) + 1
  }

  /** The tail shared by every advance that does not return early
      (room.tsx:906-930): the first eliminated hunter is recorded as owing a
      shot and suppresses the win check; otherwise a decided game goes to
      results; otherwise a move into night starts the next day's night. */
  function Settle(room: Room, u: Room, eliminated: seq<PlayerId>): (r: Room)
    ensures r.players == u.players
    ensures FirstHunter(room.players, eliminated).Some? ==>
      r.hunterPending == FirstHunter(room.players, eliminated) && r.status == u.status
    ensures FirstHunter(room.players, eliminated).None? ==> r.hunterPending == u.hunterPending
    ensures r.status == Results <==>
      u.status == Results
      || (FirstHunter(room.players, eliminated).None? && ComputeWinner(MarkDead(room.players, eliminated)).Some?)
    ensures r.status != Results && u.status == Night ==>
      r.dayCount == NextDayCount(room.dayCount) && r.nightStep == Some(MainStep)
      && r.witchTurn.None? && r.nightActions == NoActions
    ensures r.status != u.status ==> r.status == Results && r.phaseEndsAt.None?
    ensures r.status == Results && u.status != Results ==>
      var v := ComputeWinner(MarkDead(room.players, eliminated)).value;
      r.winner == Some(v.winner) && r.winReason == Some(v.reason)
  {
    var hunter := FirstHunter(room.players, eliminated);
    var u1 := if hunter.Some? then u.(hunterPending := hunter) else u;
    var verdict := ComputeWinner(MarkDead(room.players, eliminated));
    if verdict.Some? && hunter.None? then
      u1.(status := Results, phaseEndsAt := None, winner := Some(verdict.value.winner),
          winReason := Some(verdict.value.reason))
    else if u1.status == Night then
      u1.(dayCount := NextDayCount(room.dayCount), nightStep := Some(MainStep), witchTurn := None,
          nightActions := NoActions)
    else
      u1
  }

  // ---------------------------------------------------------------------------
  // Night
  // ---------------------------------------------------------------------------

  /** The victim the witch was shown, or else the main step's (room.tsx:811). */
  function WitchVictim(room: Room): Option<PlayerId> {
    if room.witchTurn.Some? && room.witchTurn.value.pendingVictimId.Some?
    then room.witchTurn.value.pendingVictimId
    else ResolveMainNight(room.players, room.nightActions).pendingVictimId
  }

  /** The charges after a resolved night (room.tsx:824-835): the heal is
      spent by a recorded heal with a victim, the poison by a recorded poison
      target; a spent charge stays spent. */
  function SpendCharges(room: Room): (w: WitchState)
    ensures Charges(room).healUsed ==> w.healUsed
    ensures Charges(room).poisonUsed ==> w.poisonUsed
    ensures w.healUsed <==> Charges(room).healUsed || (room.nightActions.witchHeal && WitchVictim(room).Some?)
    ensures w.poisonUsed <==> Charges(room).poisonUsed || room.nightActions.witchPoisonTarget.Some?
  {
    var c := Charges(room);
    var consumedHeal := room.nightActions.witchHeal && WitchVictim(room).Some? && !c.healUsed;
    var consumedPoison := room.nightActions.witchPoisonTarget.Some? && !c.poisonUsed;
    WitchState(c.healUsed || consumedHeal, c.poisonUsed || consumedPoison)
  }

  /** The deaths of a resolved night: the witch-adjusted kill list closed
      under the broken-heart rule. */
  function NightDeaths(room: Room): seq<PlayerId> {
    var result := ResolveFinalNight(room.players, room.nightActions, Charges(room), WitchVictim(room));
    ApplyLoverDeaths(result.killedIds, room.lovers)
  }

  /** The end of a night (room.tsx:810-848): deaths applied, charges spent,
      the protected id remembered, the night's result recorded, the actions
      cleared, and the silencer's target muted for the coming day. */
  function ResolveNight(room: Room, u: Room): (r: Room)
    ensures r.players == MarkDead(u.players, NightDeaths(room))
    ensures r.witchState == Some(SpendCharges(room))
    ensures r.nightActions == NoActions && r.witchTurn.None? && r.nightStep == Some(MainStep)
    ensures r.lastNight.Some? && r.lastNight.value.killedIds == NightDeaths(room)
    ensures room.nightActions.bodyguardProtect.Some? ==>
      r.bodyguardLastProtectedId == room.nightActions.bodyguardProtect
    ensures room.nightActions.bodyguardProtect.None? ==>
      r.bodyguardLastProtectedId == u.bodyguardLastProtectedId
    ensures room.nightActions.silencerTarget.Some? ==>
      r.silencedPlayerId == room.nightActions.silencerTarget
      && r.silencedDayCount == Some(if room.dayCount == 0 then 1 else room.dayCount as int)
    ensures room.nightActions.silencerTarget.None? ==>
      r.silencedPlayerId == u.silencedPlayerId && r.silencedDayCount == u.silencedDayCount
    ensures r.status == u.status && r.lovers == u.lovers && r.dayCount == u.dayCount
  {
    var na := room.nightActions;
    var result := ResolveFinalNight(room.players, na, Charges(room), WitchVictim(room));
    var killed := NightDeaths(room);
    var r := u.(
      players := MarkDead(u.players, killed),
      witchState := Some(SpendCharges(room)),
      bodyguardLastProtectedId :=
        if na.bodyguardProtect.Some? then na.bodyguardProtect else u.bodyguardLastProtectedId,
      lastNight := Some(result.(killedIds := killed)),
      nightActions := NoActions,
      witchTurn := None,
      nightStep := Some(MainStep));
    if na.silencerTarget.Some? then
      r.(silencedPlayerId := na.silencerTarget,
         silencedDayCount := Some(if room.dayCount == 0 then 1 else room.dayCount as int))
    else r
  }

  /** A night advance (room.tsx:775-848). In the cupid step the night
      continues until exactly two lovers are chosen, then binds them and
      opens the main step. After the main step a living witch with a charge
      left gets her own step, shown the pending victim. Otherwise the night
      resolves and the day begins. */
  function AdvanceNight(room: Room, u: Room, now: int): Room
    requires room.status == Night
  {
    var nightDeadline := Some(Deadline(now, Night));
    if room.nightStep == Some(CupidStep) then
      var chosen := room.nightActions.cupidLoverIds;
      if chosen.None? || |chosen.value| != 2 then
        u.(status := Night, phaseEndsAt := nightDeadline)
      else
        u.(status := Night, lovers := chosen.value, nightActions := NoActions,
           nightStep := Some(MainStep), phaseEndsAt := nightDeadline)
    else if room.nightStep != Some(WitchStep) && WitchCanAct(room.players, Charges(room)) then
      var main := ResolveMainNight(room.players, room.nightActions);
      u.(status := Night, nightStep := Some(WitchStep),
         witchTurn := Some(WitchTurn(main.pendingVictimId, Pass)), phaseEndsAt := nightDeadline)
    else
      Settle(room, ResolveNight(room, u), NightDeaths(room))
  }

  // ---------------------------------------------------------------------------
  // Voting and the final plea
  // ---------------------------------------------------------------------------

  /** A voting advance (room.tsx:851-866): a definite target goes to the
      final plea with its count; no ballots, only skips or a tie go straight
      back to night without the day bump. */
  function AdvanceVoting(room: Room, u: Room, now: int): Room
    requires room.status == Voting
  {
    var vr := ComputeVoteResult(room.votes);
    if vr.Some? && vr.value.targetId.Some? then
      u.(status := Final, finalAccusedId := vr.value.targetId, finalAccusedVotes := Some(vr.value.votes),
         phaseEndsAt := Some(Deadline(now, Final)))
    else
      u.(status := Night, finalAccusedId := None, finalVotes := map[], finalAccusedVotes := None)
  }

  /** Ballots of the final plea equal to `v`. */
  function FinalCount(finalVotes: map<PlayerId, FinalVote>, v: FinalVote): nat {
    |BallotsFor(finalVotes, v)|
  }

  /** The voters whose final-plea ballot is `v`. */
  function BallotsFor(finalVotes: map<PlayerId, FinalVote>, v: FinalVote): set<PlayerId> {
    set id | id in finalVotes && finalVotes[id] == v
  }

  /** True iff the final plea condemns the accused: strictly more kill than
      save ballots (room.tsx:871-873). */
  predicate Condemned(room: Room) {
    FinalCount(room.finalVotes, Kill) > FinalCount(room.finalVotes, Save)
  }

  /** The fields cleared when the final plea is over. */
  function CloseFinal(u: Room): Room {
    u.(status := Night, finalAccusedId := None, finalVotes := map[], finalAccusedVotes := None)
  }

  /** A final-plea advance (room.tsx:868-897): a condemned accused dies with
      their lover; a condemned Fool wins at once; otherwise night follows. */
  function AdvanceFinal(room: Room, u: Room): Room
    requires room.status == Final
  {
    if room.finalAccusedId.Some? && Condemned(room) then
      var accused := room.finalAccusedId.value;
      var dead := ApplyLoverDeaths([accused], room.lovers);
      var u1 := u.(players := MarkDead(u.players, dead), lastEliminated := dead);
      if HasRole(room.players, accused, Fool) then
        u1.(status := Results, phaseEndsAt := None, winner := Some(TheFool), winReason := Some(FoolVotedOut))
      else
        Settle(room, CloseFinal(u1), dead)
    else
      Settle(room, CloseFinal(u.(lastEliminated := [])), [])
  }

  /** True iff the recorded silence is for the current day (a zero day
      count reads as no silence). */
  predicate SilencedToday(room: Room) {
    room.silencedDayCount.Some? && room.silencedDayCount.value != 0
    && room.silencedDayCount.value == room.dayCount as int
  }

  /** Day's end clears a silence that was for this day (room.tsx:899-904). */
  function ExpireSilence(room: Room, u: Room): (r: Room)
    ensures SilencedToday(room) ==> r == u.(silencedPlayerId := None, silencedDayCount := None)
    ensures !SilencedToday(room) ==> r == u
  {
    if SilencedToday(room) then u.(silencedPlayerId := None, silencedDayCount := None)
    else u
  }

  /** The room after one advance, whatever the phase (room.tsx:758-933). */
  function AdvanceRoom(room: Room, now: int): Room {
    var u := Opening(room, now);
    match room.status
    case Night => AdvanceNight(room, u, now)
    case Voting => AdvanceVoting(room, u, now)
    case Final => AdvanceFinal(room, u)
    case Day => Settle(room, ExpireSilence(room, u), [])
    case _ => Settle(room, u, [])
  }

  /** The host's advance: nothing happens unless `actor` holds a record
      flagged as host; the players present stay exactly the players present. */
  function AdvancePhase(room: Room, actor: PlayerId, now: int): (o: Outcome)
    ensures o.Ignored? <==> !IsHost(room, actor)
    ensures !o.Refused?
    ensures o.Applied? ==> o.room.players.Keys == room.players.Keys
    ensures o.Applied? ==> o.room.status != Lobby
  {
    if !IsHost(room, actor) then Ignored
    else
      var r := AdvanceRoom(room, now);
      assert r.players.Keys == room.players.Keys by {
        AdvanceKeepsRoster(room, now);
      }
      Applied(r)
  }

  /** No advance adds or removes a player. */
  lemma AdvanceKeepsRoster(room: Room, now: int)
    ensures AdvanceRoom(room, now).players.Keys == room.players.Keys
    ensures AdvanceRoom(room, now).status != Lobby
  {
    var u := Opening(room, now);
    match room.status
    case Night =>
      if room.nightStep != Some(CupidStep) && !(room.nightStep != Some(WitchStep) && WitchCanAct(room.players, Charges(room))) {
        var v := ResolveNight(room, u);
        assert Settle(room, v, NightDeaths(room)).players == v.players;
      }
    case Voting =>
    case Final =>
    case Day =>
    case _ =>
  }

  // ---------------------------------------------------------------------------
  // Game start and lobby reset
  // ---------------------------------------------------------------------------

  /** The position of `id` in `order`. */
  function IndexOf(order: seq<PlayerId>, id: PlayerId): (i: nat)
    requires id in order
    ensures i < |order| && order[i] == id
  {
    if order[0] == id then 0 else 1 + IndexOf(order[1..], id)
  }

  /** The deck a start would deal to `n` players (room.tsx:593-606). */
  function DeckFor(room: Room, n: nat, draws: seq<nat>): (d: Result<seq<Role>, DeckError>)
    requires n >= 1
    ensures d.Ok? ==> |d.value| == n
    ensures Mode(room) == Classic ==> d.Ok? && forall r :: multiset(d.value)[r] == ClassicQuota(n, r)
    ensures Mode(room) == Custom ==> d == BuildCustomRoleDeck(n, GetCustomRoleCounts(room.customRoles), draws)
  {
    if Mode(room) == Custom then
      var d := BuildCustomRoleDeck(n, GetCustomRoleCounts(room.customRoles), draws);
      if d.Ok? then
        StoredCustomDeck(n, room.customRoles, draws);
        d
      else d
    else
      BuildRoleDeckComposition(n, draws);
      Ok(BuildRoleDeck(n, draws))
  }

  /** Every player gets the role at their position in `order`, and is alive,
      not ready and not a spectator (room.tsx:630-635). */
  function Deal(players: map<PlayerId, Player>, order: seq<PlayerId>, deck: seq<Role>): (r: map<PlayerId, Player>)
    requires Enumerates(order, players) && |deck| == |order|
    ensures r.Keys == players.Keys
    ensures forall i :: 0 <= i < |order| ==> r[order[i]].role == Some(deck[i])
    ensures forall id :: id in r ==>
      r[id] == players[id].(role := r[id].role, isAlive := true, isReady := false, isSpectator := false)
  {
    var r := map id | id in players ::
      players[id].(role := Some(deck[IndexOf(order, id)]), isAlive := true, isReady := false, isSpectator := false);
    assert forall i :: 0 <= i < |order| ==> IndexOf(order, order[i]) == i by {
      forall i | 0 <= i < |order| ensures IndexOf(order, order[i]) == i {
        var j := IndexOf(order, order[i]);
        assert order[j] == order[i];
      }
    }
    r
  }

  /** The per-game fields written at the start (room.tsx:608-628). The
      final-plea count is not among them. */
  function FreshGame(room: Room, players: map<PlayerId, Player>, cupid: bool, now: int): Room {
    room.(
      status := Night,
      nightStep := Some(if cupid then CupidStep else MainStep),
      dayCount := 1,
      phaseEndsAt := Some(Deadline(now, Night)),
      votes := map[],
      finalVotes := map[],
      finalAccusedId := None,
      nightActions := NoActions,
      bodyguardLastProtectedId := None,
      lovers := [],
      silencedPlayerId := None,
      silencedDayCount := None,
      witchState := Some(FreshCharges),
      witchTurn := None,
      lastNight := None,
      lastEliminated := [],
      hunterPending := None,
      winner := None,
      winReason := None,
      chat := [],
      players := players)
  }

  /** Dealing puts a cupid in play iff the deck holds one. */
  lemma DealtCupid(players: map<PlayerId, Player>, order: seq<PlayerId>, deck: seq<Role>)
    requires Enumerates(order, players) && |deck| == |order|
    ensures (Cupid in deck) <==> exists id :: HasRole(Deal(players, order, deck), id, Cupid)
  {
    var dealt := Deal(players, order, deck);
    if Cupid in deck {
      var i :| 0 <= i < |deck| && deck[i] == Cupid;
      assert HasRole(dealt, order[i], Cupid);
    }
    if exists id :: HasRole(dealt, id, Cupid) {
      var id :| HasRole(dealt, id, Cupid);
      var i := IndexOf(order, id);
      assert deck[i] == Cupid;
    }
  }

  /** The room after a start that passed every check: the i-th player of the
      enumeration holds the i-th card, everyone is alive, unready and seated,
      and the night opens on the cupid step iff a cupid was dealt. */
  function Started(room: Room, order: seq<PlayerId>, deck: seq<Role>, now: int): (g: Room)
    requires Enumerates(order, room.players) && |deck| == |order|
    ensures g.players.Keys == room.players.Keys
    ensures forall i :: 0 <= i < |order| ==> g.players[order[i]].role == Some(deck[i])
    ensures forall id :: id in g.players ==>
      g.players[id].isAlive && !g.players[id].isReady && !g.players[id].isSpectator
    ensures g.nightStep == Some(CupidStep) <==> exists id :: HasRole(g.players, id, Cupid)
    ensures g.nightStep == Some(if Cupid in deck then CupidStep else MainStep)
    ensures forall id :: id in g.players ==>
      g.players[id] == room.players[id].(role := g.players[id].role, isAlive := true, isReady := false, isSpectator := false)
    ensures g.status == Night && g.dayCount == 1 && g.witchState == Some(FreshCharges)
    ensures g.phaseEndsAt == Some(Deadline(now, Night))
    ensures && g.votes == map[] && g.finalVotes == map[] && g.nightActions == NoActions
            && g.lovers == [] && g.witchTurn.None? && g.lastNight.None? && g.lastEliminated == []
            && g.hunterPending.None? && g.winner.None? && g.winReason.None?
            && g.bodyguardLastProtectedId.None? && g.silencedPlayerId.None? && g.silencedDayCount.None?
            && g.finalAccusedId.None? && g.chat == []
    ensures g.finalAccusedVotes == room.finalAccusedVotes
    ensures && g.code == room.code && g.hostId == room.hostId
            && g.gameMode == room.gameMode && g.customRoles == room.customRoles
  {
    var dealt := Deal(room.players, order, deck);
    DealtCupid(room.players, order, deck);
    FreshGame(room, dealt, Cupid in deck, now)
  }

  /** The host starts the game (room.tsx:577-638). Checks in order: the
      actor must be host (else nothing), at least four players, everyone
      ready, and a valid deck; then the deck is dealt in enumeration order. */
  function StartGame(room: Room, actor: PlayerId, order: seq<PlayerId>, draws: seq<nat>, now: int): (o: Outcome)
    requires Enumerates(order, room.players)
    ensures o.Ignored? <==> !IsHost(room, actor)
    ensures o == Refused(TooFewPlayers) <==> IsHost(room, actor) && |room.players| < MinPlayers
    ensures o == Refused(NotEveryoneReady) <==>
      IsHost(room, actor) && |room.players| >= MinPlayers && exists id :: id in room.players && !room.players[id].isReady
    ensures o.Refused? && o.reason.InvalidSetup? <==>
      && IsHost(room, actor) && |room.players| >= MinPlayers
      && (forall id :: id in room.players ==> room.players[id].isReady)
      && DeckFor(room, |order|, draws).Err?
    ensures o.Refused? && o.reason.InvalidSetup? ==> Err(o.reason.deckError) == DeckFor(room, |order|, draws)
    ensures o.Applied? ==>
      && DeckFor(room, |order|, draws).Ok?
      && |DeckFor(room, |order|, draws).value| == |order|
      && o.room == Started(room, order, DeckFor(room, |order|, draws).value, now)
  {
    if !IsHost(room, actor) then Ignored
    else if |room.players| < MinPlayers then Refused(TooFewPlayers)
    else if exists id :: id in room.players && !room.players[id].isReady then Refused(NotEveryoneReady)
    else
      DistinctCardinality(order, room.players);
      var d := DeckFor(room, |order|, draws);
      if d.Err? then Refused(InvalidSetup(d.error))
      else Applied(Started(room, order, d.value, now))
  }

  /** An enumeration has exactly as many entries as the map has keys. */
  lemma {:induction false} DistinctCardinality(order: seq<PlayerId>, m: map<PlayerId, Player>)
    requires Enumerates(order, m)
    ensures |order| == |m|
    decreases |order|
  {
    if order == [] {
      assert m.Keys == {};
    } else {
      var k := order[|order| - 1];
      var front := order[..|order| - 1];
      var rest := m - {k};
      assert k !in front by {
        forall i | 0 <= i < |front| ensures front[i] != k {
          assert order[i] == front[i];
        }
      }
      forall key | key in rest ensures key in front {
        var i :| 0 <= i < |order| && order[i] == key;
        assert i < |order| - 1;
        assert front[i] == key;
      }
      assert Distinct(front) by {
        forall i, j | 0 <= i < j < |front| ensures front[i] != front[j] {
          assert front[i] == order[i] && front[j] == order[j];
        }
      }
      DistinctCardinality(front, rest);
      assert m.Keys == rest.Keys + {k};
    }
  }

  /** The host resets to the lobby (room.tsx:935-966): every per-game field is
      removed, roles are taken back and everyone is alive, unready and seated;
      the chat, the day count and the final-plea count are kept. */
  function ResetLobby(room: Room, actor: PlayerId): (o: Outcome)
    ensures o.Ignored? <==> !IsHost(room, actor)
    ensures !o.Refused?
    ensures o.Applied? ==>
      var g := o.room;
      && g.status == Lobby && g.phaseEndsAt.None? && g.nightStep.None?
      && g.players.Keys == room.players.Keys
      && (forall id :: id in g.players ==>
            g.players[id] == room.players[id].(role := None, isAlive := true, isReady := false, isSpectator := false))
      && g.votes == map[] && g.finalVotes == map[] && g.nightActions == NoActions
      && g.witchState.None? && g.witchTurn.None? && g.lovers == [] && g.hunterPending.None?
      && g.winner.None? && g.winReason.None? && g.lastNight.None? && g.lastEliminated == []
      && g.chat == room.chat && g.dayCount == room.dayCount && g.finalAccusedVotes.None?
      && g.bodyguardLastProtectedId.None? && g.finalAccusedId.None?
      && g.silencedPlayerId.None? && g.silencedDayCount.None?
      && g.code == room.code && g.hostId == room.hostId
      && g.gameMode == room.gameMode && g.customRoles == room.customRoles
  {
    if !IsHost(room, actor) then Ignored
    else
      var seated := map id | id in room.players ::
        room.players[id].(role := None, isAlive := true, isReady := false, isSpectator := false);
      Applied(room.(
        status := Lobby,
        phaseEndsAt := None,
        nightStep := None,
        bodyguardLastProtectedId := None,
        votes := map[],
        nightActions := NoActions,
        finalVotes := map[],
        finalAccusedId := None,
        finalAccusedVotes := None,
        witchState := None,
        witchTurn := None,
        lastNight := None,
        lastEliminated := [],
        hunterPending := None,
        lovers := [],
        silencedPlayerId := None,
        silencedDayCount := None,
        winner := None,
        winReason := None,
        players := seated))
  }

  // ---------------------------------------------------------------------------
  // Timer
  // ---------------------------------------------------------------------------

  /** Seconds left on the phase clock, rounded up and never negative
      (room.tsx:1098); absent when no deadline is set (a zero deadline reads
      as none). */
  function Countdown(phaseEndsAt: Option<int>, now: int): (c: Option<nat>)
    ensures c.None? <==> phaseEndsAt.None? || phaseEndsAt.value == 0
    ensures c.Some? && c.value == 0 ==> phaseEndsAt.value - now <= 0
    ensures c.Some? && c.value > 0 ==>
      (c.value - 1) * 1000 < phaseEndsAt.value - now <= c.value * 1000
  {
    if phaseEndsAt.None? || phaseEndsAt.value == 0 then None
    else
      var left := phaseEndsAt.value - now;
      var up := -((-left) / 1000);
      Some(if up < 0 then 0 else up)
  }

  /** True iff the host's client should advance now (room.tsx:422-429). */
  predicate ShouldAutoAdvance(room: Room, actor: PlayerId, now: int) {
    && room.status != Lobby && room.status != Results
    && IsHost(room, actor)
    && room.phaseEndsAt.Some? && room.phaseEndsAt.value != 0
    && now >= room.phaseEndsAt.value
  }

  /** The host's client advances a timed phase whose deadline has passed. */
  function AutoAdvance(room: Room, actor: PlayerId, now: int): (o: Outcome)
    ensures o.Applied? <==> ShouldAutoAdvance(room, actor, now)
    ensures o.Applied? ==> o == AdvancePhase(room, actor, now)
    ensures o.Applied? ==> Countdown(room.phaseEndsAt, now) == Some(0)
  {
    if ShouldAutoAdvance(room, actor, now) then AdvancePhase(room, actor, now) else Ignored
  }

  /** The host's client sets a missing deadline for a timed phase
      (room.tsx:406-420). */
  function ArmPhaseTimer(room: Room, actor: PlayerId, now: int): (o: Outcome)
    ensures o.Applied? <==>
      room.status != Lobby && room.status != Results && IsHost(room, actor)
      && (room.phaseEndsAt.None? || room.phaseEndsAt.value == 0)
    ensures o.Applied? ==> o.room == room.(phaseEndsAt := Some(Deadline(now, room.status)))
    ensures !o.Refused?
  {
    if room.status == Lobby || room.status == Results || !IsHost(room, actor) then Ignored
    else if room.phaseEndsAt.Some? && room.phaseEndsAt.value != 0 then Ignored
    else Applied(room.(phaseEndsAt := Some(Deadline(now, room.status))))
  }
}

=== FILE: engine_props.dfy ===
/** Properties of the phase advance, one phase at a time: the night
    sub-steps, the vote outcome, the final plea's kill rule with the Fool and
    hunter exceptions, silence expiry and the witch's charges. */
module EngineProps {
  import opened Wrappers
  import opened Model
  import opened Tally
  import opened Night
  import opened Victory
  import opened Engine

  /** The cupid step (room.tsx:776-791): the night stays on the cupid step
      until exactly two lovers are chosen; then they are bound and the main
      step opens. Nobody dies and the day count stays. */
  lemma CupidStepFlow(room: Room, now: int)
    requires room.status == Night && room.nightStep == Some(CupidStep)
    ensures var r := AdvanceRoom(room, now);
      var chosen := room.nightActions.cupidLoverIds;
      && r.status == Night && r.players == room.players && r.dayCount == room.dayCount
      && (chosen.Some? && |chosen.value| == 2 ==>
            r.lovers == chosen.value && r.nightStep == Some(MainStep) && r.nightActions == NoActions)
      && (chosen.None? || |chosen.value| != 2 ==>
            r.lovers == room.lovers && r.nightStep == Some(CupidStep) && r.nightActions == room.nightActions)
  {
  }

  /** After the main step the witch gets her own step iff a living witch has
      a charge left (room.tsx:793-809); she is shown the main step's victim
      and nobody has died yet. */
  lemma WitchStepFlow(room: Room, now: int)
    requires room.status == Night && room.nightStep != Some(CupidStep) && room.nightStep != Some(WitchStep)
    ensures var r := AdvanceRoom(room, now);
      && (r.nightStep == Some(WitchStep) <==> WitchCanAct(room.players, Charges(room)))
      && (r.nightStep == Some(WitchStep) ==>
            && r.status == Night && r.players == room.players
            && r.witchTurn == Some(WitchTurn(ResolveMainNight(room.players, room.nightActions).pendingVictimId, Pass)))
  {
    var u := Opening(room, now);
    if !WitchCanAct(room.players, Charges(room)) {
      var v := ResolveNight(room, u);
      assert v.nightStep == Some(MainStep);
    }
  }

  /** A resolved night (room.tsx:811-848, 906-930): every night death is
      dead, nobody else changes, and the game moves to the day unless it is
      decided; a hunter among the dead owes a shot and keeps the game going. */
  lemma NightResolutionFlow(room: Room, now: int)
    requires room.status == Night && room.nightStep != Some(CupidStep)
    requires room.nightStep == Some(WitchStep) || !WitchCanAct(room.players, Charges(room))
    ensures var r := AdvanceRoom(room, now);
      var dead := NightDeaths(room);
      && r.players == MarkDead(room.players, dead)
      && (r.status == Day || r.status == Results)
      && (r.status == Results <==> FirstHunter(room.players, dead).None? && ComputeWinner(r.players).Some?)
      && (FirstHunter(room.players, dead).Some? ==> r.hunterPending == FirstHunter(room.players, dead))
      && r.witchState == Some(SpendCharges(room))
      && r.nightActions == NoActions && r.witchTurn.None?
  {
  }

  /** The witch's charges only ever go from unused to used across an advance. */
  lemma ChargesMonotone(room: Room, now: int)
    ensures var r := AdvanceRoom(room, now);
      && (Charges(room).healUsed ==> Charges(r).healUsed)
      && (Charges(room).poisonUsed ==> Charges(r).poisonUsed)
  {
    var u := Opening(room, now);
    match room.status
    case Night =>
      if room.nightStep != Some(CupidStep) && !(room.nightStep != Some(WitchStep) && WitchCanAct(room.players, Charges(room))) {
        var v := ResolveNight(room, u);
        assert Settle(room, v, NightDeaths(room)).witchState == v.witchState;
      }
    case Voting =>
    case Final =>
      if room.finalAccusedId.Some? && Condemned(room) {
        var dead := ApplyLoverDeaths([room.finalAccusedId.value], room.lovers);
        var u1 := u.(players := MarkDead(u.players, dead), lastEliminated := dead);
        assert Settle(room, CloseFinal(u1), dead).witchState == room.witchState;
      } else {
        assert Settle(room, CloseFinal(u.(lastEliminated := [])), []).witchState == room.witchState;
      }
    case Day =>
      assert Settle(room, ExpireSilence(room, u), []).witchState == room.witchState;
    case _ =>
      assert Settle(room, u, []).witchState == room.witchState;
  }

  /** The vote's end (room.tsx:851-866): a definite target is put on trial
      with its ballot count; anything else (no ballots, only skips, a tie)
      goes back to night with the day count and the night step unchanged and
      without a win check. */
  lemma VotingFlow(room: Room, now: int)
    requires room.status == Voting
    ensures var r := AdvanceRoom(room, now);
      var vr := ComputeVoteResult(room.votes);
      && (r.status == Final <==> vr.Some? && vr.value.targetId.Some?)
      && (r.status == Final ==>
            && r.finalAccusedId == vr.value.targetId
            && r.finalAccusedVotes == Some(Count(room.votes, vr.value.targetId.value))
            && (forall t :: t in Candidates(room.votes) && Some(t) != r.finalAccusedId ==>
                  Count(room.votes, t) < Count(room.votes, vr.value.targetId.value)))
      && (r.status != Final ==>
            && r.status == Night && r.dayCount == room.dayCount && r.nightStep == room.nightStep
            && r.finalAccusedId.None? && r.finalAccusedVotes.None?)
      && r.players == room.players
  {
  }

  /** The trial is decided by the engine's own order-free tally, which is the
      result the source's loop reaches for every iteration order of the
      ballots. */
  lemma VotingUsesAnyOrderTally(room: Room, order: seq<PlayerId>, now: int)
    requires room.status == Voting && Enumerates(order, room.votes)
    ensures var vr := ComputeVoteResultInOrder(room.votes, order);
      AdvanceRoom(room, now).status == Final <==> vr.Some? && vr.value.targetId.Some?
  {
    VoteResultIndependentOfOrder(room.votes, order);
  }

  /** The final plea (room.tsx:868-897): the accused dies iff strictly more
      ballots say kill than save, so a tie survives; nobody else but a lover
      of the accused dies. */
  lemma FinalKillRule(room: Room, now: int)
    requires room.status == Final && room.finalAccusedId.Some? && room.finalAccusedId.value in room.players
    ensures var r := AdvanceRoom(room, now);
      var accused := room.finalAccusedId.value;
      && r.players.Keys == room.players.Keys
      && (r.players[accused].isAlive <==> room.players[accused].isAlive && !Condemned(room))
      && (forall id :: id in r.players && id != accused && id !in room.lovers ==>
            r.players[id] == room.players[id])
  {
    var accused := room.finalAccusedId.value;
    var u := Opening(room, now);
    if Condemned(room) {
      var dead := ApplyLoverDeaths([accused], room.lovers);
      assert accused in dead;
      var u1 := u.(players := MarkDead(u.players, dead), lastEliminated := dead);
      if !HasRole(room.players, accused, Fool) {
        assert Settle(room, CloseFinal(u1), dead).players == u1.players;
      }
    } else {
      assert Settle(room, CloseFinal(u.(lastEliminated := [])), []).players == room.players;
    }
  }

  /** A condemned Fool ends the game with the Fool's win at once, ahead of
      the hunter rule and the normal win check (room.tsx:880-889). */
  lemma FoolWinsAtOnce(room: Room, now: int)
    requires room.status == Final && room.finalAccusedId.Some? && Condemned(room)
    requires HasRole(room.players, room.finalAccusedId.value, Fool)
    ensures var r := AdvanceRoom(room, now);
      && r.status == Results && r.winner == Some(TheFool) && r.winReason == Some(FoolVotedOut)
      && r.phaseEndsAt.None? && r.hunterPending == room.hunterPending
      && r.lastEliminated == ApplyLoverDeaths([room.finalAccusedId.value], room.lovers)
  {
  }

  /** A condemned hunter (or a hunter taken along as a lover) owes a shot,
      and the game does not end in that step (room.tsx:906-920). */
  lemma HunterDefersResults(room: Room, now: int)
    requires room.status == Final && room.finalAccusedId.Some? && Condemned(room)
    requires !HasRole(room.players, room.finalAccusedId.value, Fool)
    requires FirstHunter(room.players, ApplyLoverDeaths([room.finalAccusedId.value], room.lovers)).Some?
    ensures var r := AdvanceRoom(room, now);
      && r.hunterPending == FirstHunter(room.players, ApplyLoverDeaths([room.finalAccusedId.value], room.lovers))
      && r.status == Night
  {
  }

  /** The final plea ends in night or results; a night that follows starts
      the next day's count on the main step (room.tsx:925-929). */
  lemma FinalToNightBumpsDay(room: Room, now: int)
    requires room.status == Final
    ensures var r := AdvanceRoom(room, now);
      && (r.status == Night || r.status == Results)
      && (r.status == Night ==>
            && r.dayCount == NextDayCount(room.dayCount) && r.nightStep == Some(MainStep)
            && r.nightActions == NoActions && r.witchTurn.None?
            && r.finalAccusedId.None? && r.finalVotes == map[])
  {
  }

  /** The day's end (room.tsx:899-904): a silence for the current day is
      lifted; any other silence is kept. */
  lemma SilenceExpiresAtDayEnd(room: Room, now: int)
    requires room.status == Day
    ensures var r := AdvanceRoom(room, now);
      && (Engine.SilencedToday(room) ==> r.silencedPlayerId.None? && r.silencedDayCount.None?)
      && (!Engine.SilencedToday(room) ==>
            r.silencedPlayerId == room.silencedPlayerId && r.silencedDayCount == room.silencedDayCount)
      && (r.status == Voting || r.status == Results)
      && r.players == room.players
  {
  }

  /** A shot still owed does not hold the game up: the host's advance applies
      whatever `hunterPending` says (room.tsx:758-760). */
  lemma PendingShotDoesNotBlock(room: Room, actor: PlayerId, now: int)
    requires IsHost(room, actor) && room.hunterPending.Some?
    ensures AdvancePhase(room, actor, now) == Applied(AdvanceRoom(room, now))
  {
  }
}

=== FILE: intent_props.dfy ===
/** How the player writes relate to each other and to what the engine later
    reads from them: toggles undo, ballots replace, repeated writes change
    nothing, the witch's recorded choice is the one the night resolves, and
    a joiner who leaves restores the roster. */
module IntentProps {
  import opened Wrappers
  import opened Model
  import opened Tally
  import opened Night
  import opened Engine
  import opened Intents

  /** Toggling readiness twice restores the room. */
  lemma ToggleReadyTwice(room: Room, actor: PlayerId)
    requires actor in room.players
    ensures var once := ToggleReady(room, actor);
      once.Applied? && ToggleReady(once.room, actor) == Applied(room)
  {
    var once := ToggleReady(room, actor).room;
    assert once.players[actor := once.players[actor].(isReady := !once.players[actor].isReady)] == room.players;
  }

  /** A later ballot replaces an earlier one by the same voter. */
  lemma LastBallotWins(room: Room, actor: PlayerId, first: PlayerId, second: PlayerId)
    requires actor in room.players
    ensures SetVote(SetVote(room, actor, first).room, actor, second) == SetVote(room, actor, second)
  {
  }

  /** A ballot moves its voter to the chosen target's supporters and takes
      them from every other target's; nobody else's ballot moves. */
  lemma BallotMovesOneVoter(room: Room, actor: PlayerId, target: PlayerId, t: PlayerId)
    requires actor in room.players
    ensures var after := SetVote(room, actor, target).room.votes;
      && (t == target ==> VotersFor(after, t) == VotersFor(room.votes, t) + {actor})
      && (t != target ==> VotersFor(after, t) == VotersFor(room.votes, t) - {actor})
  {
    var after := SetVote(room, actor, target).room.votes;
    assert after == room.votes[actor := target];
    if t == target {
      forall v | v in VotersFor(room.votes, t) + {actor} ensures v in VotersFor(after, t) {
      }
    } else {
      forall v | v in VotersFor(room.votes, t) - {actor} ensures v in VotersFor(after, t) {
      }
    }
  }

  /** A later final-plea ballot replaces an earlier one by the same voter. */
  lemma LastFinalBallotWins(room: Room, actor: PlayerId, first: FinalVote, second: FinalVote)
    requires SetFinalVote(room, actor, first).Applied?
    ensures SetFinalVote(SetFinalVote(room, actor, first).room, actor, second) == SetFinalVote(room, actor, second)
  {
  }

  /** 1 if the voter's earlier ballot was `w`, else 0. */
  function PriorBallot(finalVotes: map<PlayerId, FinalVote>, actor: PlayerId, w: FinalVote): nat {
    if actor in finalVotes && finalVotes[actor] == w then 1 else 0
  }

  /** Writing one ballot moves the count of `w` by at most one: it loses
      the voter's earlier ballot if that was `w` and gains the new one if
      it is `w`. */
  lemma FinalCountAfterBallot(finalVotes: map<PlayerId, FinalVote>, actor: PlayerId, v: FinalVote, w: FinalVote)
    ensures FinalCount(finalVotes[actor := v], w) + PriorBallot(finalVotes, actor, w)
         == FinalCount(finalVotes, w) + (if v == w then 1 else 0)
  {
    var updated := finalVotes[actor := v];
    var before := BallotsFor(finalVotes, w);
    var after := BallotsFor(updated, w);
    var others := before - {actor};
    assert after - {actor} == others;
    if v == w {
      assert after == others + {actor};
    } else {
      assert after == others;
    }
    if PriorBallot(finalVotes, actor, w) == 1 {
      assert before == others + {actor};
    } else {
      assert before == others;
    }
  }

  /** A final-plea ballot (room.tsx:662-671) changes the tallies that
      decide the accused's fate (room.tsx:871-873) by exactly that one
      voter: a first Kill raises the kill count by one and leaves the save
      count alone, a changed ballot moves one from one side to the other.
      So a Kill ballot never spares a condemned accused, and a Save ballot
      never condemns a spared one. */
  lemma FinalBallotMovesTally(room: Room, actor: PlayerId, v: FinalVote, w: FinalVote)
    requires SetFinalVote(room, actor, v).Applied?
    ensures var after := SetFinalVote(room, actor, v).room;
      && FinalCount(after.finalVotes, w) + PriorBallot(room.finalVotes, actor, w)
         == FinalCount(room.finalVotes, w) + (if v == w then 1 else 0)
      && (v == Kill && Condemned(room) ==> Condemned(after))
      && (v == Save && !Condemned(room) ==> !Condemned(after))
  {
    var after := SetFinalVote(room, actor, v).room;
    assert after.finalVotes == room.finalVotes[actor := v];
    FinalCountAfterBallot(room.finalVotes, actor, v, w);
    FinalCountAfterBallot(room.finalVotes, actor, v, Kill);
    FinalCountAfterBallot(room.finalVotes, actor, v, Save);
  }

  /** Submitting the same night action twice is the same as submitting it once. */
  lemma NightActionIdempotent(room: Room, actor: PlayerId, update: map<NightKey, PlayerId>)
    requires SetNightAction(room, actor, update).Applied?
    ensures var once := SetNightAction(room, actor, update).room;
      SetNightAction(once, actor, update) == Applied(once)
  {
    var once := SetNightAction(room, actor, update).room;
    var twice := SetNightAction(once, actor, update);
    assert twice.Applied?;
    var a := once.nightActions;
    var b := twice.room.nightActions;
    assert Get(a, WerewolfTarget) == Get(b, WerewolfTarget);
    assert Get(a, BodyguardProtect) == Get(b, BodyguardProtect);
    assert Get(a, SeerInspect) == Get(b, SeerInspect);
    assert Get(a, DetectiveTargetA) == Get(b, DetectiveTargetA);
    assert Get(a, DetectiveTargetB) == Get(b, DetectiveTargetB);
    assert Get(a, SilencerTarget) == Get(b, SilencerTarget);
    assert a == b;
  }

  /** The witch's recorded choice is the one the night resolution reads:
      a heal, a poison or a pass as requested. */
  lemma WitchChoiceIsResolved(room: Room, actor: PlayerId, action: WitchChoice, target: Option<PlayerId>)
    requires SetWitchAction(room, actor, action, target).Applied?
    ensures WitchActionOf(SetWitchAction(room, actor, action, target).room.nightActions) == action
  {
  }

  /** One lover named keeps the night on the cupid step; two bind them as
      lovers and open the main step (room.tsx:745, 776-791). */
  lemma CupidChoiceThenAdvance(room: Room, actor: PlayerId, targets: seq<PlayerId>, now: int)
    requires SetCupidAction(room, actor, targets).Applied?
    ensures var r := AdvanceRoom(SetCupidAction(room, actor, targets).room, now);
      && r.status == Night
      && (|targets| == 1 ==> r.nightStep == Some(CupidStep) && r.lovers == room.lovers)
      && (|targets| == 2 ==> r.nightStep == Some(MainStep) && r.lovers == targets)
  {
  }

  /** A pending hunter shoots once: a second shot is ignored. */
  lemma HunterShootsOnce(room: Room, actor: PlayerId, target: PlayerId, second: PlayerId)
    requires SendHunterShot(room, actor, target).Applied?
    ensures SendHunterShot(SendHunterShot(room, actor, target).room, actor, second) == Ignored
  {
  }

  /** Removing a non-host record that was just added restores the roster. */
  lemma LeaveUndoesArrival(room: Room, actor: PlayerId, p: Player, order: seq<PlayerId>)
    requires actor !in room.players && !p.isHost
    requires Enumerates(order, room.players[actor := p])
    ensures LeaveRoom(room.(players := room.players[actor := p]), actor, order).players == room.players
  {
  }

  /** A newcomer who joins and leaves again leaves the roster as it was. */
  lemma JoinThenLeave(room: Room, actor: PlayerId, name: string, code: string, now: int, order: seq<PlayerId>)
    requires actor !in room.players
    requires JoinRoom(Some(room), actor, name, code, now).Applied?
    requires Enumerates(order, JoinRoom(Some(room), actor, name, code, now).room.players)
    ensures LeaveRoom(JoinRoom(Some(room), actor, name, code, now).room, actor, order).players == room.players
  {
    var p := Arrival(Trim(name), false, room.status, now);
    assert JoinRoom(Some(room), actor, name, code, now).room == room.(players := room.players[actor := p]);
    LeaveUndoesArrival(room, actor, p, order);
  }

  /** Resetting an already reset lobby changes nothing. */
  lemma ResetLobbyIdempotent(room: Room, actor: PlayerId)
    requires IsHost(room, actor)
    ensures var once := ResetLobby(room, actor);
      once.Applied? && ResetLobby(once.room, actor) == once
  {
  }

  /** A freshly armed timer shows the phase's full length and does not fire
      before its deadline (room.tsx:406-429, 1098). */
  lemma ArmedTimerCountsDown(room: Room, actor: PlayerId, now: int)
    requires ArmPhaseTimer(room, actor, now).Applied? && now >= 0
    ensures var armed := ArmPhaseTimer(room, actor, now).room;
      && Countdown(armed.phaseEndsAt, now) == Some(PhaseSeconds(room.status).value)
      && AutoAdvance(armed, actor, now) == Ignored
      && (forall later :: later >= armed.phaseEndsAt.value ==> AutoAdvance(armed, actor, later).Applied?)
  {
  }
}

=== FILE: intents.dfy ===
/** The player-issued writes: readiness, ballots, night actions, the witch's
    and cupid's choices, chat, the hunter's shot, and joining, rejoining,
    leaving and removal with the host handover. Each is a guarded pure
    update that yields a new room, a refusal with the source's message, or
    nothing. */
module Intents {
  import opened Wrappers
  import opened Model
  import opened Night
  import opened Victory

  // ---------------------------------------------------------------------------
  // Readiness and ballots
  // ---------------------------------------------------------------------------

  /** A player flips their own ready flag (room.tsx:564-575). */
  function ToggleReady(room: Room, actor: PlayerId): (o: Outcome)
    ensures o == Refused(NotInRoom) <==> actor !in room.players
    ensures o.Refused? || o.Applied?
    ensures o.Applied? ==>
      && o.room.players.Keys == room.players.Keys
      && o.room.players[actor].isReady == !room.players[actor].isReady
      && o.room.players[actor] == room.players[actor].(isReady := o.room.players[actor].isReady)
      && (forall id :: id in room.players && id != actor ==> o.room.players[id] == room.players[id])
      && o.room == room.(players := o.room.players)
  {
    if actor !in room.players then Refused(NotInRoom)
    else Applied(room.(players := room.players[actor := room.players[actor].(isReady := !room.players[actor].isReady)]))
  }

  /** A player casts (or replaces) their day ballot; no phase is checked
      (room.tsx:640-647). */
  function SetVote(room: Room, actor: PlayerId, target: PlayerId): (o: Outcome)
    ensures o.Ignored? <==> actor !in room.players
    ensures !o.Refused?
    ensures o.Applied? ==>
      && o.room.votes.Keys == room.votes.Keys + {actor}
      && o.room.votes[actor] == target
      && (forall v :: v in room.votes && v != actor ==> o.room.votes[v] == room.votes[v])
      && o.room == room.(votes := o.room.votes)
  {
    if actor !in room.players then Ignored
    else Applied(room.(votes := room.votes[actor := target]))
  }

  /** A living player other than the accused casts a final-plea ballot
      (room.tsx:662-671). */
  function SetFinalVote(room: Room, actor: PlayerId, v: FinalVote): (o: Outcome)
    ensures o.Applied? <==>
      IsAliveIn(room.players, actor) && room.status == Final && room.finalAccusedId != Some(actor)
    ensures !o.Refused?
    ensures o.Applied? ==>
      && o.room.finalVotes.Keys == room.finalVotes.Keys + {actor}
      && o.room.finalVotes[actor] == v
      && (forall id :: id in room.finalVotes && id != actor ==> o.room.finalVotes[id] == room.finalVotes[id])
      && o.room == room.(finalVotes := o.room.finalVotes)
  {
    if actor !in room.players then Ignored
    else if room.status != Final then Ignored
    else if !room.players[actor].isAlive then Ignored
    else if room.finalAccusedId == Some(actor) then Ignored
    else Applied(room.(finalVotes := room.finalVotes[actor := v]))
  }

  // ---------------------------------------------------------------------------
  // Night actions
  // ---------------------------------------------------------------------------

  /** The target-valued night-action keys. */
  datatype NightKey = WerewolfTarget | BodyguardProtect | SeerInspect | DetectiveTargetA | DetectiveTargetB | SilencerTarget

  /** The value stored under a key. */
  function Get(na: NightActions, k: NightKey): Option<PlayerId> {
    match k
    case WerewolfTarget => na.werewolfTarget
    case BodyguardProtect => na.bodyguardProtect
    case SeerInspect => na.seerInspect
    case DetectiveTargetA => na.detectiveTargetA
    case DetectiveTargetB => na.detectiveTargetB
    case SilencerTarget => na.silencerTarget
  }

  /** The actions with one key written. */
  function Put(na: NightActions, k: NightKey, v: PlayerId): (r: NightActions)
    ensures Get(r, k) == Some(v)
    ensures forall k' :: k' != k ==> Get(r, k') == Get(na, k')
    ensures r.witchHeal == na.witchHeal && r.witchPoisonTarget == na.witchPoisonTarget
    ensures r.cupidLoverIds == na.cupidLoverIds
  {
    match k
    case WerewolfTarget => na.(werewolfTarget := Some(v))
    case BodyguardProtect => na.(bodyguardProtect := Some(v))
    case SeerInspect => na.(seerInspect := Some(v))
    case DetectiveTargetA => na.(detectiveTargetA := Some(v))
    case DetectiveTargetB => na.(detectiveTargetB := Some(v))
    case SilencerTarget => na.(silencerTarget := Some(v))
  }

  /** The keys each role may write at night (room.tsx:679-690); a player
      without a role writes as a villager. */
  function AllowedKeys(role: Role): set<NightKey> {
    match role
    case Werewolf => {WerewolfTarget}
    case Bodyguard => {BodyguardProtect}
    case Seer => {SeerInspect}
    case Detective => {DetectiveTargetA, DetectiveTargetB}
    case Silencer => {SilencerTarget}
    case _ => {}
  }

  /** The part of an update a role may write. */
  function Permitted(update: map<NightKey, PlayerId>, role: Role): (e: map<NightKey, PlayerId>)
    ensures forall k :: k in e <==> k in update && k in AllowedKeys(role)
    ensures forall k :: k in e ==> e[k] == update[k]
  {
    map k | k in update && k in AllowedKeys(role) :: update[k]
  }

  /** Every target-valued key, in declaration order. */
  const AllKeys: seq<NightKey> :=
    [WerewolfTarget, BodyguardProtect, SeerInspect, DetectiveTargetA, DetectiveTargetB, SilencerTarget]

  /** Every key is listed. */
  lemma AllKeysListed()
    ensures forall k :: k in AllKeys
  {
    forall k ensures k in AllKeys {
      match k
      case WerewolfTarget => assert AllKeys[0] == k;
      case BodyguardProtect => assert AllKeys[1] == k;
      case SeerInspect => assert AllKeys[2] == k;
      case DetectiveTargetA => assert AllKeys[3] == k;
      case DetectiveTargetB => assert AllKeys[4] == k;
      case SilencerTarget => assert AllKeys[5] == k;
    }
  }

  /** The entries of `e` whose keys are among `keys`, written over `na`. */
  function MergeKeys(na: NightActions, e: map<NightKey, PlayerId>, keys: seq<NightKey>): (r: NightActions)
    ensures forall k :: Get(r, k) == if k in e && k in keys then Some(e[k]) else Get(na, k)
    ensures r.witchHeal == na.witchHeal && r.witchPoisonTarget == na.witchPoisonTarget
    ensures r.cupidLoverIds == na.cupidLoverIds
  {
    if keys == [] then na
    else
      var r := MergeKeys(na, e, keys[1..]);
      assert forall k :: k in keys <==> k == keys[0] || k in keys[1..];
      if keys[0] in e then Put(r, keys[0], e[keys[0]]) else r
  }

  /** Every entry of `e` written over `na` (one dotted-path write per entry). */
  function Merge(na: NightActions, e: map<NightKey, PlayerId>): (r: NightActions)
    ensures forall k :: Get(r, k) == if k in e then Some(e[k]) else Get(na, k)
    ensures r.witchHeal == na.witchHeal && r.witchPoisonTarget == na.witchPoisonTarget
    ensures r.cupidLoverIds == na.cupidLoverIds
  {
    AllKeysListed();
    MergeKeys(na, e, AllKeys)
  }

  /** The role a player acts with. */
  function RoleOf(p: Player): Role {
    p.role.GetOr(Villager)
  }

  /** A living player submits main-step night actions (room.tsx:673-712).
      Only the keys of the player's role are kept; nothing is written if none
      remain, if the bodyguard repeats last night's protection, or if the
      silencer picks themself or a player who is not alive. */
  function SetNightAction(room: Room, actor: PlayerId, update: map<NightKey, PlayerId>): (o: Outcome)
    ensures !o.Refused?
    ensures o.Applied? <==>
      && IsAliveIn(room.players, actor) && room.status == Night && room.nightStep == Some(MainStep)
      && var e := Permitted(update, RoleOf(room.players[actor]));
      && e != map[]
      && (BodyguardProtect in e ==> room.bodyguardLastProtectedId != Some(e[BodyguardProtect]))
      && (SilencerTarget in e ==> e[SilencerTarget] != actor && IsAliveIn(room.players, e[SilencerTarget]))
    ensures o.Applied? ==>
      && (forall k :: Get(o.room.nightActions, k) ==
            if k in update && k in AllowedKeys(RoleOf(room.players[actor])) then Some(update[k])
            else Get(room.nightActions, k))
      && o.room.nightActions.witchHeal == room.nightActions.witchHeal
      && o.room.nightActions.witchPoisonTarget == room.nightActions.witchPoisonTarget
      && o.room.nightActions.cupidLoverIds == room.nightActions.cupidLoverIds
      && o.room == room.(nightActions := o.room.nightActions)
  {
    if actor !in room.players then Ignored
    else if room.status != Night || room.nightStep != Some(MainStep) then Ignored
    else if !room.players[actor].isAlive then Ignored
    else
      var e := Permitted(update, RoleOf(room.players[actor]));
      if e == map[] then Ignored
      else if BodyguardProtect in e && room.bodyguardLastProtectedId == Some(e[BodyguardProtect]) then Ignored
      else if SilencerTarget in e && e[SilencerTarget] == actor then Ignored
      else if SilencerTarget in e && !IsAliveIn(room.players, e[SilencerTarget]) then Ignored
      else Applied(room.(nightActions := Merge(room.nightActions, e)))
  }

  /** The living witch records her choice in her own step
      (room.tsx:714-739). A heal needs an unused heal and a victim; a poison
      needs an unused poison and a living target; a pass clears both. Any
      earlier choice is replaced, so heal and poison are never both set. */
  function SetWitchAction(room: Room, actor: PlayerId, action: WitchChoice, target: Option<PlayerId>): (o: Outcome)
    ensures !o.Refused?
    ensures o.Applied? ==>
      && IsAliveIn(room.players, actor) && HasRole(room.players, actor, Witch)
      && room.status == Night && room.nightStep == Some(WitchStep)
    ensures o.Applied? ==> !(o.room.nightActions.witchHeal && o.room.nightActions.witchPoisonTarget.Some?)
    ensures o.Applied? ==> (o.room.nightActions.witchHeal <==> action == Heal)
    ensures o.Applied? && action == Heal ==>
      !Charges(room).healUsed && room.witchTurn.Some? && room.witchTurn.value.pendingVictimId.Some?
    ensures o.Applied? ==> (o.room.nightActions.witchPoisonTarget.Some? <==> action == Poison)
    ensures o.Applied? && action == Poison ==>
      && !Charges(room).poisonUsed && target.Some? && IsAliveIn(room.players, target.value)
      && o.room.nightActions.witchPoisonTarget == target
    ensures o.Applied? ==>
      o.room == room.(nightActions := room.nightActions.(
        witchHeal := o.room.nightActions.witchHeal, witchPoisonTarget := o.room.nightActions.witchPoisonTarget))
    ensures (IsAliveIn(room.players, actor) && HasRole(room.players, actor, Witch)
             && room.status == Night && room.nightStep == Some(WitchStep) && action == Pass) ==> o.Applied?
    ensures (IsAliveIn(room.players, actor) && HasRole(room.players, actor, Witch)
             && room.status == Night && room.nightStep == Some(WitchStep) && action == Heal
             && !Charges(room).healUsed && room.witchTurn.Some? && room.witchTurn.value.pendingVictimId.Some?)
            ==> o.Applied?
    ensures (IsAliveIn(room.players, actor) && HasRole(room.players, actor, Witch)
             && room.status == Night && room.nightStep == Some(WitchStep) && action == Poison
             && !Charges(room).poisonUsed && target.Some? && IsAliveIn(room.players, target.value))
            ==> o.Applied?
  {
    if actor !in room.players then Ignored
    else if room.status != Night || room.nightStep != Some(WitchStep) then Ignored
    else if !room.players[actor].isAlive || room.players[actor].role != Some(Witch) then Ignored
    else
      var charges := Charges(room);
      var pending := if room.witchTurn.Some? then room.witchTurn.value.pendingVictimId else None;
      var cleared := room.nightActions.(witchHeal := false, witchPoisonTarget := None);
      match action
      case Heal =>
        if charges.healUsed || pending.None? then Ignored
        else Applied(room.(nightActions := cleared.(witchHeal := true)))
      case Poison =>
        if charges.poisonUsed || target.None? then Ignored
        else if !IsAliveIn(room.players, target.value) then Ignored
        else Applied(room.(nightActions := cleared.(witchPoisonTarget := target)))
      case Pass =>
        Applied(room.(nightActions := cleared))
  }

  /** The living cupid names one or two distinct existing players in the
      cupid step (room.tsx:741-756). */
  function SetCupidAction(room: Room, actor: PlayerId, targets: seq<PlayerId>): (o: Outcome)
    ensures !o.Refused?
    ensures o.Applied? <==>
      && IsAliveIn(room.players, actor) && HasRole(room.players, actor, Cupid)
      && room.status == Night && room.nightStep == Some(CupidStep)
      && 1 <= |targets| <= 2 && Distinct(targets)
      && (forall t :: t in targets ==> t in room.players)
    ensures o.Applied? ==> o.room == room.(nightActions := room.nightActions.(cupidLoverIds := Some(targets)))
  {
    if actor !in room.players then Ignored
    else if room.status != Night || room.nightStep != Some(CupidStep) then Ignored
    else if !room.players[actor].isAlive || room.players[actor].role != Some(Cupid) then Ignored
    else if |targets| < 1 || |targets| > 2 then Ignored
    else if |targets| == 2 && targets[0] == targets[1] then Ignored
    else if targets[0] !in room.players then Ignored
    else if |targets| == 2 && targets[1] !in room.players then Ignored
    else
      assert forall t :: t in targets ==> t == targets[0] || (|targets| == 2 && t == targets[1]);
      Applied(room.(nightActions := room.nightActions.(cupidLoverIds := Some(targets))))
  }

  // ---------------------------------------------------------------------------
  // Chat
  // ---------------------------------------------------------------------------

  /** The characters `String.prototype.trim` removes: the ECMAScript
      WhiteSpace and LineTerminator code points. */
  predicate IsTrimmable(c: char) {
    var n := c as int;
    || (0x09 <= n <= 0x0D) || n == 0x20 || n == 0xA0 || n == 0x1680
    || (0x2000 <= n <= 0x200A)
    || n == 0x2028 || n == 0x2029 || n == 0x202F || n == 0x205F || n == 0x3000 || n == 0xFEFF
  }

  /** `s` without leading whitespace. */
  function TrimStart(s: string): (r: string)
    ensures |r| <= |s| && r == s[|s| - |r|..]
    ensures r == [] || !IsTrimmable(r[0])
    ensures forall i :: 0 <= i < |s| - |r| ==> IsTrimmable(s[i])
  {
    if s == [] || !IsTrimmable(s[0]) then s
    else
      var r := TrimStart(s[1..]);
      assert forall i :: 1 <= i < |s| - |r| ==> s[i] == s[1..][i - 1];
      r
  }

  /** `s` without trailing whitespace. */
  function TrimEnd(s: string): (r: string)
    ensures |r| <= |s| && r == s[..|r|]
    ensures r == [] || !IsTrimmable(r[|r| - 1])
    ensures forall i :: |r| <= i < |s| ==> IsTrimmable(s[i])
  {
    if s == [] || !IsTrimmable(s[|s| - 1]) then s
    else
      var r := TrimEnd(s[..|s| - 1]);
      assert forall i :: |r| <= i < |s| - 1 ==> s[i] == s[..|s| - 1][i];
      r
  }

  /** `String.prototype.trim`: `s` without its leading and trailing
      whitespace. It is empty iff `s` is all whitespace. */
  function Trim(s: string): (r: string)
    ensures r == [] || (!IsTrimmable(r[0]) && !IsTrimmable(r[|r| - 1]))
    ensures r == [] <==> forall k :: 0 <= k < |s| ==> IsTrimmable(s[k])
  {
    var a := TrimStart(s);
    var r := TrimEnd(a);
    if r == [] then
      assert a == [];
      r
    else
      assert r[0] == a[0];
      r
  }

  /** The trimmed text is the slice of the input between a run of leading
      and a run of trailing whitespace. */
  lemma TrimIsSlice(s: string)
    ensures exists i, j ::
      && 0 <= i <= j <= |s| && Trim(s) == s[i..j]
      && (forall k :: 0 <= k < i ==> IsTrimmable(s[k]))
      && (forall k :: j <= k < |s| ==> IsTrimmable(s[k]))
  {
    var a := TrimStart(s);
    var r := TrimEnd(a);
    var i := |s| - |a|;
    var j := i + |r|;
    assert r == s[i..j] by {
      assert a == s[i..];
      assert r == a[..|r|];
    }
    forall k | j <= k < |s| ensures IsTrimmable(s[k]) {
      assert s[k] == a[k - i];
    }
  }

  /** True iff the actor is muted for the current day or final plea
      (room.tsx:1023-1030). */
  predicate MutedNow(room: Room, actor: PlayerId) {
    (room.status == Day || room.status == Final)
    && room.silencedPlayerId == Some(actor)
    && room.silencedDayCount == Some(room.dayCount as int)
  }

  /** A player posts to the room chat (room.tsx:1016-1047). The dead cannot
      chat, a player silenced for today cannot chat by day or in the final
      plea, and at night only werewolves chat, to werewolves only. A message
      that trims to nothing is dropped. The message id and clock are given. */
  function SendChat(room: Room, actor: PlayerId, message: string, messageId: string, now: int): (o: Outcome)
    ensures o.Ignored? <==>
      || actor !in room.players
      || (&& room.players[actor].isAlive && !MutedNow(room, actor)
          && !(room.status == Night && !HasRole(room.players, actor, Werewolf)) && Trim(message) == [])
    ensures o == Refused(EliminatedCannotChat) <==> actor in room.players && !room.players[actor].isAlive
    ensures o == Refused(SilencedToday) <==>
      IsAliveIn(room.players, actor) && MutedNow(room, actor)
    ensures o == Refused(NightChatIsForWerewolves) <==>
      IsAliveIn(room.players, actor) && !MutedNow(room, actor)
      && room.status == Night && !HasRole(room.players, actor, Werewolf)
    ensures o.Applied? ==>
      && |o.room.chat| == |room.chat| + 1
      && o.room.chat[..|room.chat|] == room.chat
      && var m := o.room.chat[|room.chat|];
      && m.senderId == actor && m.message == Trim(message) && m.message != []
      && m.senderName == room.players[actor].name
      && (m.audience == Some(WerewolvesOnly) <==> room.status == Night)
      && (room.status == Night ==> HasRole(room.players, actor, Werewolf))
      && o.room == room.(chat := o.room.chat)
  {
    if actor !in room.players then Ignored
    else
      var me := room.players[actor];
      if !me.isAlive then Refused(EliminatedCannotChat)
      else if MutedNow(room, actor) then Refused(SilencedToday)
      else if room.status == Night && me.role != Some(Werewolf) then Refused(NightChatIsForWerewolves)
      else
        var text := Trim(message);
        if text == [] then Ignored
        else
          var audience := if room.status == Night then WerewolvesOnly else Everyone;
          Applied(room.(chat := room.chat + [ChatMessage(messageId, actor, me.name, text, Some(audience), now)]))
  }

  // ---------------------------------------------------------------------------
  // The hunter's shot
  // ---------------------------------------------------------------------------

  /** The pending hunter shoots a living player (room.tsx:1065-1096): the
      target dies with their lover, the debt is cleared, the dead are appended
      to the eliminated list, and a decided game goes to results. */
  function SendHunterShot(room: Room, actor: PlayerId, target: PlayerId): (o: Outcome)
    ensures !o.Refused?
    ensures o.Applied? <==>
      actor in room.players && room.hunterPending == Some(actor) && IsAliveIn(room.players, target)
    ensures o.Applied? ==>
      var dead := ApplyLoverDeaths([target], room.lovers);
      && o.room.hunterPending.None?
      && o.room.players == MarkDead(room.players, dead)
      && !o.room.players[target].isAlive
      && o.room.lastEliminated == room.lastEliminated + dead
      && (ComputeWinner(o.room.players).Some? ==>
            o.room.status == Results && o.room.phaseEndsAt.None?
            && o.room.winner == Some(ComputeWinner(o.room.players).value.winner)
            && o.room.winReason == Some(ComputeWinner(o.room.players).value.reason))
      && (ComputeWinner(o.room.players).None? ==>
            && o.room.status == room.status && o.room.phaseEndsAt == room.phaseEndsAt
            && o.room.winner == room.winner && o.room.winReason == room.winReason)
    ensures o.Applied? ==>
      o.room == room.(hunterPending := None, lastEliminated := o.room.lastEliminated, players := o.room.players,
                      status := o.room.status, phaseEndsAt := o.room.phaseEndsAt,
                      winner := o.room.winner, winReason := o.room.winReason)
  {
    if actor !in room.players then Ignored
    else if room.hunterPending != Some(actor) then Ignored
    else if !IsAliveIn(room.players, target) then Ignored
    else
      var dead := ApplyLoverDeaths([target], room.lovers);
      assert target in dead by {
        if |room.lovers| == 2 { assert target in [target]; }
      }
      var after := MarkDead(room.players, dead);
      var u := room.(hunterPending := None, lastEliminated := room.lastEliminated + dead, players := after);
      var verdict := ComputeWinner(after);
      if verdict.Some? then
        Applied(u.(status := Results, phaseEndsAt := None, winner := Some(verdict.value.winner),
                   winReason := Some(verdict.value.reason)))
      else Applied(u)
  }

  // ---------------------------------------------------------------------------
  // Membership
  // ---------------------------------------------------------------------------

  /** The record written for a player entering a room now; anyone entering
      after the lobby sits out as a dead spectator (room.tsx:539-551). */
  function Arrival(name: string, isHost: bool, status: Phase, now: int): (p: Player)
    ensures p.isSpectator <==> status != Lobby
    ensures p.isAlive <==> status == Lobby
    ensures !p.isReady && p.role.None? && p.name == name && p.isHost == isHost && p.joinedAt == now
  {
    var spectator := status != Lobby;
    Player(name, isHost, !spectator, false, spectator, None, now)
  }

  /** Joining by code (room.tsx:513-562). The name and the code are required
      after trimming; the room looked up by code is given (`None` when no such
      room exists). The joiner is never host. */
  function JoinRoom(found: Option<Room>, actor: PlayerId, name: string, code: string, now: int): (o: Outcome)
    ensures o == Refused(NameRequired) <==> Trim(name) == []
    ensures o == Refused(CodeRequired) <==> Trim(name) != [] && Trim(code) == []
    ensures o == Refused(RoomNotFound) <==> Trim(name) != [] && Trim(code) != [] && found.None?
    ensures !o.Ignored?
    ensures o.Applied? ==>
      && found.Some?
      && o.room.players == found.value.players[actor := Arrival(Trim(name), false, found.value.status, now)]
      && o.room == found.value.(players := o.room.players)
  {
    if Trim(name) == [] then Refused(NameRequired)
    else if Trim(code) == [] then Refused(CodeRequired)
    else if found.None? then Refused(RoomNotFound)
    else
      var room := found.value;
      Applied(room.(players := room.players[actor := Arrival(Trim(name), false, room.status, now)]))
  }

  /** Rejoining the current room (room.tsx:989-1014): the typed name, else
      the stored one, is required; the player is host again iff the room
      names them as host. */
  function RejoinRoom(room: Room, actor: PlayerId, typedName: string, storedName: string, now: int): (o: Outcome)
    ensures o == Refused(NameRequiredToRejoin) <==> Trim(typedName) == [] && Trim(storedName) == []
    ensures !o.Ignored?
    ensures o.Applied? ==>
      && o.room.players == room.players[actor :=
           Arrival(if Trim(typedName) != [] then Trim(typedName) else Trim(storedName), room.hostId == actor, room.status, now)]
      && o.room == room.(players := o.room.players)
  {
    var name := if Trim(typedName) != [] then Trim(typedName) else Trim(storedName);
    if name == [] then Refused(NameRequiredToRejoin)
    else Applied(room.(players := room.players[actor := Arrival(name, room.hostId == actor, room.status, now)]))
  }

  /** Exactly the player named by `hostId` is flagged as host. */
  predicate HostConsistent(room: Room) {
    && room.hostId in room.players
    && room.players[room.hostId].isHost
    && forall id :: id in room.players && id != room.hostId ==> !room.players[id].isHost
  }

  /** The ids of `order` other than `x`, in order. */
  function Without(order: seq<PlayerId>, x: PlayerId): (r: seq<PlayerId>)
    ensures forall id :: id in r <==> id in order && id != x
  {
    if order == [] then []
    else (if order[0] == x then [] else [order[0]]) + Without(order[1..], x)
  }

  /** A player leaves (room.tsx:968-987): their record is removed, and a
      departing host hands over to the first remaining player of the
      enumeration. */
  function LeaveRoom(room: Room, actor: PlayerId, order: seq<PlayerId>): (r: Room)
    requires Enumerates(order, room.players)
    ensures r.players.Keys == room.players.Keys - {actor}
    ensures var rest := Without(order, actor);
      && (IsHost(room, actor) && rest != [] ==>
            r.hostId == rest[0] && r.players[rest[0]] == room.players[rest[0]].(isHost := true)
            && forall id :: id in r.players && id != rest[0] ==> r.players[id] == room.players[id])
      && (!(IsHost(room, actor) && rest != []) ==>
            r.hostId == room.hostId && forall id :: id in r.players ==> r.players[id] == room.players[id])
    ensures r == room.(players := r.players, hostId := r.hostId)
  {
    var rest := Without(order, actor);
    var gone := room.players - {actor};
    if IsHost(room, actor) && rest != [] then
      var next := rest[0];
      assert next in gone;
      room.(hostId := next, players := gone[next := gone[next].(isHost := true)])
    else
      room.(players := gone)
  }

  /** The host removes another player (room.tsx:1049-1063); if the removed
      player was named host, the remover becomes host. */
  function RemovePlayer(room: Room, actor: PlayerId, target: PlayerId): (o: Outcome)
    ensures !o.Refused?
    ensures o.Applied? <==> IsHost(room, actor) && target in room.players && target != actor
    ensures o.Applied? ==>
      && o.room.players.Keys == room.players.Keys - {target}
      && (room.hostId == target ==>
            o.room.hostId == actor && o.room.players[actor] == room.players[actor].(isHost := true))
      && (room.hostId != target ==> o.room.hostId == room.hostId && o.room.players[actor] == room.players[actor])
      && (forall id :: id in o.room.players && id != actor ==> o.room.players[id] == room.players[id])
      && o.room == room.(players := o.room.players, hostId := o.room.hostId)
  {
    if !IsHost(room, actor) then Ignored
    else if target !in room.players then Ignored
    else if target == actor then Ignored
    else
      var gone := room.players - {target};
      if room.hostId == target then
        Applied(room.(hostId := actor, players := gone[actor := gone[actor].(isHost := true)]))
      else
        Applied(room.(players := gone))
  }

  /** A departure keeps exactly one host while someone stays behind. */
  lemma LeaveKeepsOneHost(room: Room, actor: PlayerId, order: seq<PlayerId>)
    requires Enumerates(order, room.players) && HostConsistent(room)
    requires exists id :: id in room.players && id != actor
    ensures HostConsistent(LeaveRoom(room, actor, order))
  {
  }

  /** A rejoin keeps exactly one host: the returning record is flagged as
      host iff `hostId` names it, so the flag and `hostId` cannot drift
      apart (room.tsx:1001-1008). */
  lemma RejoinKeepsOneHost(room: Room, actor: PlayerId, typedName: string, storedName: string, now: int)
    requires HostConsistent(room)
    requires RejoinRoom(room, actor, typedName, storedName, now).Applied?
    ensures HostConsistent(RejoinRoom(room, actor, typedName, storedName, now).room)
  {
  }

  /** A removal by the host keeps exactly one host. */
  lemma RemoveKeepsOneHost(room: Room, actor: PlayerId, target: PlayerId)
    requires HostConsistent(room)
    requires RemovePlayer(room, actor, target).Applied?
    ensures HostConsistent(RemovePlayer(room, actor, target).room)
  {
  }
}

=== FILE: model.dfy ===
/** The room document and its parts: every entity of the game engine as an
    immutable datatype, plus the constants and small lookups shared by the
    resolvers, the state machine and the view predicates. */
module Model {
  import opened Wrappers

  /** A per-device player identity. The client generates it as a random UUID,
      so it is never the empty string; a present id is therefore always
      truthy in the source's `if (id)` tests. */
  type PlayerId = s: string | |s| > 0 witness "p"

  /** The role enumeration used by the engine (room.tsx:24-35). */
  datatype Role = Werewolf | Seer | Bodyguard | Witch | Hunter | Fool | Detective | Silencer | Cupid | Villager

  /** The coarse phases of a room (room.tsx:62-69). */
  datatype Phase = Lobby | Night | Day | Voting | Final | Results

  /** Sub-steps of a night, in turn order. */
  datatype NightStep = CupidStep | MainStep | WitchStep

  datatype GameMode = Classic | Custom

  /** Who may read a chat message. */
  datatype Audience = Everyone | WerewolvesOnly

  /** A ballot in the final-plea round. */
  datatype FinalVote = Save | Kill

  /** The witch's decision for the night. */
  datatype WitchChoice = Heal | Poison | Pass

  datatype Winner = Villagers | Werewolves | TheFool

  /** Fewest players a game may start with. */
  const MinPlayers: nat := 4

  /** Declared role order used to expand custom counts and to normalise them. */
  const RoleOrder: seq<Role> :=
    [Werewolf, Seer, Bodyguard, Witch, Hunter, Fool, Detective, Silencer, Cupid, Villager]

  /** Length of each timed phase in seconds; lobby and results are untimed. */
  function PhaseSeconds(p: Phase): Option<nat> {
    match p
    case Night => Some(45)
    case Day => Some(120)
    case Voting => Some(45)
    case Final => Some(30)
    case _ => None
  }

  datatype Player = Player(
    name: string,
    isHost: bool,
    isAlive: bool,
    isReady: bool,
    isSpectator: bool,
    role: Option<Role>,
    joinedAt: int)

  /** The actions submitted during one night. A field that is `None` (or a
      `false` heal flag) is a key the document does not hold. */
  datatype NightActions = NightActions(
    werewolfTarget: Option<PlayerId>,
    bodyguardProtect: Option<PlayerId>,
    seerInspect: Option<PlayerId>,
    detectiveTargetA: Option<PlayerId>,
    detectiveTargetB: Option<PlayerId>,
    silencerTarget: Option<PlayerId>,
    witchHeal: bool,
    witchPoisonTarget: Option<PlayerId>,
    cupidLoverIds: Option<seq<PlayerId>>)

  /** The deleted `nightActions` field. */
  const NoActions: NightActions := NightActions(None, None, None, None, None, None, false, None, None)

  /** The witch's two once-per-game charges. */
  datatype WitchState = WitchState(healUsed: bool, poisonUsed: bool)

  const FreshCharges: WitchState := WitchState(false, false)

  /** What the witch is shown while she decides. */
  datatype WitchTurn = WitchTurn(pendingVictimId: Option<PlayerId>, action: WitchChoice)

  datatype SeerResult = SeerResult(targetId: PlayerId, role: Role)

  datatype DetectiveResult = DetectiveResult(targetA: PlayerId, targetB: PlayerId, sameTeam: bool)

  /** The recorded outcome of a night. An empty `killedIds` is the absent
      field; the source's `killedId` is always `killedIds[0]` and is not
      stored separately. */
  datatype NightResult = NightResult(
    killedIds: seq<PlayerId>,
    bodyguardSavedId: Option<PlayerId>,
    seerResult: Option<SeerResult>,
    detectiveResult: Option<DetectiveResult>,
    witchSavedId: Option<PlayerId>,
    witchPoisonedId: Option<PlayerId>)

  datatype ChatMessage = ChatMessage(
    id: string,
    senderId: PlayerId,
    senderName: string,
    message: string,
    audience: Option<Audience>,
    createdAt: int)

  /** The room document. Maps and sequences that are empty stand for fields
      the document does not hold; the source reads both the same way. */
  datatype Room = Room(
    code: string,
    hostId: PlayerId,
    status: Phase,
    dayCount: nat,
    players: map<PlayerId, Player>,
    gameMode: Option<GameMode>,
    customRoles: map<Role, int>,
    phaseEndsAt: Option<int>,
    nightStep: Option<NightStep>,
    votes: map<PlayerId, PlayerId>,
    finalVotes: map<PlayerId, FinalVote>,
    finalAccusedId: Option<PlayerId>,
    finalAccusedVotes: Option<nat>,
    nightActions: NightActions,
    witchState: Option<WitchState>,
    witchTurn: Option<WitchTurn>,
    bodyguardLastProtectedId: Option<PlayerId>,
    lovers: seq<PlayerId>,
    silencedPlayerId: Option<PlayerId>,
    silencedDayCount: Option<int>,
    lastNight: Option<NightResult>,
    lastEliminated: seq<PlayerId>,
    hunterPending: Option<PlayerId>,
    winner: Option<Winner>,
    winReason: Option<string>,
    chat: seq<ChatMessage>)

  /** Why a user-visible action was refused (the source's error messages). */
  datatype Refusal =
    | NameRequired
    | CodeRequired
    | RoomNotFound
    | NameRequiredToRejoin
    | NotInRoom
    | TooFewPlayers
    | NotEveryoneReady
    | InvalidSetup(deckError: DeckError)
    | EliminatedCannotChat
    | SilencedToday
    | NightChatIsForWerewolves

  /** Why a custom role deck could not be built. */
  datatype DeckError = TotalMismatch(expected: int, total: int) | NoWerewolf

  /** The effect of a player's request: a new room document, a refusal with a
      message, or a silent no-op. */
  datatype Outcome = Applied(room: Room) | Refused(reason: Refusal) | Ignored

  /** The document after an outcome: unchanged unless the request applied. */
  function After(o: Outcome, room: Room): Room {
    if o.Applied? then o.room else room
  }

  /** True iff `actor` holds a player record flagged as host. */
  predicate IsHost(room: Room, actor: PlayerId) {
    actor in room.players && room.players[actor].isHost
  }

  /** The witch charges, defaulting to unused when the field is absent. */
  function Charges(room: Room): WitchState {
    room.witchState.GetOr(FreshCharges)
  }

  /** The game mode, defaulting to classic when the field is absent. */
  function Mode(room: Room): GameMode {
    room.gameMode.GetOr(Classic)
  }

  /** True iff `id` names a living player. */
  predicate IsAliveIn(players: map<PlayerId, Player>, id: PlayerId) {
    id in players && players[id].isAlive
  }

  /** True iff `id` names a player whose role is `r`. */
  predicate HasRole(players: map<PlayerId, Player>, id: PlayerId, r: Role) {
    id in players && players[id].role == Some(r)
  }

  /** No element occurs twice. */
  predicate Distinct<T(==)>(s: seq<T>) {
    forall i, j :: 0 <= i < j < |s| ==> s[i] != s[j]
  }

  /** `order` lists the keys of `m` once each: one possible iteration order
      of the document map `m`. */
  predicate Enumerates<K(==), V>(order: seq<K>, m: map<K, V>) {
    && Distinct(order)
    && (forall k :: k in order ==> k in m)
    && (forall k :: k in m ==> k in order)
  }

  /** The players after `ids` are marked dead. Ids without a record are skipped. */
  function MarkDead(players: map<PlayerId, Player>, ids: seq<PlayerId>): (r: map<PlayerId, Player>)
    ensures r.Keys == players.Keys
    ensures forall id :: id in r ==> r[id].isAlive == (players[id].isAlive && id !in ids)
    ensures forall id :: id in r ==> r[id] == players[id].(isAlive := r[id].isAlive)
  {
    map id | id in players :: if id in ids then players[id].(isAlive := false) else players[id]
  }
}

=== FILE: night.dfy ===
/** The night resolvers: the werewolf kill against the bodyguard's
    protection, the seer and detective reveals, the witch's heal or poison,
    and the broken-heart closure that takes a lover along. */
module Night {
  import opened Wrappers
  import opened Model

  /** True iff the role is on the werewolf side (only the werewolf is). */
  predicate IsWerewolfTeam(role: Option<Role>) {
    role == Some(Werewolf)
  }

  /** True iff both roles are on the same side; a missing role is a villager's. */
  predicate SameTeam(a: Option<Role>, b: Option<Role>) {
    IsWerewolfTeam(a) == IsWerewolfTeam(b)
  }

  /** What the main night step produces before the witch has acted. */
  datatype MainResult = MainResult(
    pendingVictimId: Option<PlayerId>,
    bodyguardSavedId: Option<PlayerId>,
    seerResult: Option<SeerResult>,
    detectiveResult: Option<DetectiveResult>)

  /** The main step's outcome (room.tsx:199-241): the werewolf target dies
      unless the bodyguard protected the same id; the seer learns the role of
      an inspected player who exists (a player without a role reads as a
      villager); the detective learns whether two existing players are on
      the same side. */
  function ResolveMainNight(players: map<PlayerId, Player>, na: NightActions): (r: MainResult)
    ensures forall v :: r.pendingVictimId == Some(v) <==>
      na.werewolfTarget == Some(v) && na.bodyguardProtect != Some(v)
    ensures r.pendingVictimId.None? <==>
      na.werewolfTarget.None? || na.werewolfTarget == na.bodyguardProtect
    ensures r.bodyguardSavedId == na.bodyguardProtect
    ensures r.seerResult.Some? <==> na.seerInspect.Some? && na.seerInspect.value in players
    ensures r.seerResult.Some? ==>
      && Some(r.seerResult.value.targetId) == na.seerInspect
      && (players[r.seerResult.value.targetId].role.Some? ==>
            players[r.seerResult.value.targetId].role == Some(r.seerResult.value.role))
      && (players[r.seerResult.value.targetId].role.None? ==> r.seerResult.value.role == Villager)
    ensures r.detectiveResult.Some? <==>
      && na.detectiveTargetA.Some? && na.detectiveTargetA.value in players
      && na.detectiveTargetB.Some? && na.detectiveTargetB.value in players
    ensures r.detectiveResult.Some? ==>
      var d := r.detectiveResult.value;
      && Some(d.targetA) == na.detectiveTargetA
      && Some(d.targetB) == na.detectiveTargetB
      && (d.sameTeam <==> (HasRole(players, d.targetA, Werewolf) <==> HasRole(players, d.targetB, Werewolf)))
  {
    var pending :=
      if na.werewolfTarget.Some? && na.werewolfTarget != na.bodyguardProtect then na.werewolfTarget else None;
    var seer :=
      match na.seerInspect
      case Some(t) =>
        if t in players then Some(SeerResult(t, players[t].role.GetOr(Villager))) else None
      case None => None;
    var detective :=
      if && na.detectiveTargetA.Some? && na.detectiveTargetA.value in players
         && na.detectiveTargetB.Some? && na.detectiveTargetB.value in players
      then
        var a := na.detectiveTargetA.value;
        var b := na.detectiveTargetB.value;
        Some(DetectiveResult(a, b, SameTeam(players[a].role, players[b].role)))
      else None;
    MainResult(pending, na.bodyguardProtect, seer, detective)
  }

  /** The witch's recorded choice: a heal flag wins over a poison target. */
  function WitchActionOf(na: NightActions): (c: WitchChoice)
    ensures c == Heal <==> na.witchHeal
    ensures c == Poison <==> !na.witchHeal && na.witchPoisonTarget.Some?
  {
    if na.witchHeal then Heal else if na.witchPoisonTarget.Some? then Poison else Pass
  }

  /** `acc` with `x` appended unless already present (adding to a JS `Set`). */
  function AddNew(acc: seq<PlayerId>, x: PlayerId): seq<PlayerId> {
    if x in acc then acc else acc + [x]
  }

  /** The elements of `s` in first-occurrence order, each once
      (`Array.from(new Set(s))`). */
  function Dedup(s: seq<PlayerId>): (r: seq<PlayerId>)
    ensures Distinct(r)
    ensures forall x :: x in r <==> x in s
    ensures Distinct(s) ==> r == s
  {
    if s == [] then []
    else
      var front := Dedup(s[..|s| - 1]);
      var x := s[|s| - 1];
      assert forall y :: y in s <==> y in s[..|s| - 1] || y == x by {
        assert s == s[..|s| - 1] + [x];
      }
      if x in front then
        front
      else
        assert Distinct(front + [x]) by {
          forall i, j | 0 <= i < j < |front + [x]| ensures (front + [x])[i] != (front + [x])[j] {
            if j == |front| {
              assert (front + [x])[i] == front[i];
            }
          }
        }
        assert Distinct(s) ==> front + [x] == s by {
          if Distinct(s) {
            assert Distinct(s[..|s| - 1]);
            assert s == s[..|s| - 1] + [x];
          }
        }
        front + [x]
  }

  /** The night's outcome after the witch (room.tsx:243-286). The victim is
      the main step's pending victim, or else the one recorded when the witch
      step began. A heal is honoured only with the heal unused and a victim
      to save, and then the victim survives; a poison is honoured only with
      the poison unused and no heal recorded, and then its target dies. No
      one else dies, and nobody is listed twice. */
  function ResolveFinalNight(players: map<PlayerId, Player>, na: NightActions, charges: WitchState,
                             pendingVictimId: Option<PlayerId>): (r: NightResult)
    ensures var victim := if ResolveMainNight(players, na).pendingVictimId.Some?
                          then ResolveMainNight(players, na).pendingVictimId else pendingVictimId;
      && (r.witchSavedId.Some? <==> !charges.healUsed && na.witchHeal && victim.Some?)
      && (r.witchSavedId.Some? ==> r.witchSavedId == victim)
      && (r.witchPoisonedId.Some? <==> !charges.poisonUsed && !na.witchHeal && na.witchPoisonTarget.Some?)
      && (r.witchPoisonedId.Some? ==> r.witchPoisonedId == na.witchPoisonTarget)
      && (forall id :: id in r.killedIds <==>
            (victim == Some(id) && r.witchSavedId.None?) || r.witchPoisonedId == Some(id))
    ensures !(r.witchSavedId.Some? && r.witchPoisonedId.Some?)
    ensures Distinct(r.killedIds)
    ensures forall id :: id in r.killedIds ==>
      Some(id) == pendingVictimId || Some(id) == na.werewolfTarget || Some(id) == na.witchPoisonTarget
    ensures var main := ResolveMainNight(players, na);
      && r.bodyguardSavedId == main.bodyguardSavedId
      && r.seerResult == main.seerResult
      && r.detectiveResult == main.detectiveResult
  {
    var main := ResolveMainNight(players, na);
    var action := WitchActionOf(na);
    var victim := if main.pendingVictimId.Some? then main.pendingVictimId else pendingVictimId;
    var canHeal := !charges.healUsed && action == Heal && victim.Some?;
    var canPoison := !charges.poisonUsed && action == Poison && na.witchPoisonTarget.Some?;
    var killed0: seq<PlayerId> := if victim.Some? && !canHeal then [victim.value] else [];
    var killed := if canPoison then AddNew(killed0, na.witchPoisonTarget.value) else killed0;
    NightResult(
      killed,
      main.bodyguardSavedId,
      main.seerResult,
      main.detectiveResult,
      if canHeal then victim else None,
      if canPoison then na.witchPoisonTarget else None)
  }

  /** The broken-heart rule (room.tsx:301-308). Unless exactly two lovers
      are bound the list is returned as given. Otherwise the result holds
      every input id once, and a lover is in it iff either lover was in the
      input; nobody else is added. */
  function ApplyLoverDeaths(killed: seq<PlayerId>, lovers: seq<PlayerId>): (r: seq<PlayerId>)
    ensures |lovers| != 2 ==> r == killed
    ensures |lovers| == 2 ==>
      && Distinct(r)
      && (forall id :: id in killed ==> id in r)
      && (forall id :: id in r ==> id in killed || id in lovers)
      && (lovers[0] in r <==> lovers[0] in killed || lovers[1] in killed)
      && (lovers[1] in r <==> lovers[0] in killed || lovers[1] in killed)
  {
    if |lovers| != 2 then killed
    else
      var a := lovers[0];
      var b := lovers[1];
      var k0 := Dedup(killed);
      var k1 := if a in k0 && b !in k0 then k0 + [b] else k0;
      var k2 := if b in k1 && a !in k1 then k1 + [a] else k1;
      assert Distinct(k1) by {
        if a in k0 && b !in k0 {
          forall i, j | 0 <= i < j < |k1| ensures k1[i] != k1[j] {
            if j == |k0| { assert k1[i] == k0[i]; }
          }
        }
      }
      assert Distinct(k2) by {
        if b in k1 && a !in k1 {
          forall i, j | 0 <= i < j < |k2| ensures k2[i] != k2[j] {
            if j == |k1| { assert k2[i] == k1[i]; }
          }
        }
      }
      k2
  }

  /** Applying the broken-heart rule twice is the same as applying it once. */
  lemma {:induction false} ApplyLoverDeathsIdempotent(killed: seq<PlayerId>, lovers: seq<PlayerId>)
    ensures ApplyLoverDeaths(ApplyLoverDeaths(killed, lovers), lovers) == ApplyLoverDeaths(killed, lovers)
  {
    if |lovers| == 2 {
      var once := ApplyLoverDeaths(killed, lovers);
      assert Dedup(once) == once;
    }
  }

  /** A single death with lovers bound: the victim alone, or the victim and
      the partner when the victim is one of the two lovers. */
  lemma LoverDeathOfOne(id: PlayerId, lovers: seq<PlayerId>)
    requires |lovers| == 2 && lovers[0] != lovers[1]
    ensures id == lovers[0] ==> ApplyLoverDeaths([id], lovers) == [id, lovers[1]]
    ensures id == lovers[1] ==> ApplyLoverDeaths([id], lovers) == [id, lovers[0]]
    ensures id !in lovers ==> ApplyLoverDeaths([id], lovers) == [id]
  {
    assert Dedup([id]) == [id];
  }
}

=== FILE: tally.dfy ===
/** The day-vote tally: ballots per target, skip ballots ignored, an explicit
    tie when the top count is shared, and a result that does not depend on
    the order in which the ballot map is iterated. */
module Tally {
  import opened Wrappers
  import opened Model

  /** The ballot that abstains. */
  const Skip: PlayerId := "skip"

  /** Outcome of a day vote: a unique leader, or a tie with no target. */
  datatype VoteResult = VoteResult(targetId: Option<PlayerId>, votes: nat, isTie: bool)

  /** The voters whose ballot names `t`. */
  function VotersFor(votes: map<PlayerId, PlayerId>, t: PlayerId): set<PlayerId> {
    set v: PlayerId | v in votes && votes[v] == t
  }

  /** Number of ballots naming `t`. */
  function Count(votes: map<PlayerId, PlayerId>, t: PlayerId): nat {
    |VotersFor(votes, t)|
  }

  /** Every target that received a ballot, skip excluded. */
  function Candidates(votes: map<PlayerId, PlayerId>): set<PlayerId> {
    votes.Values - {Skip}
  }

  /** Ballots per value cast, as an order-free map. */
  function CountMap(votes: map<PlayerId, PlayerId>): map<PlayerId, nat> {
    map t | t in votes.Values :: Count(votes, t)
  }

  lemma MaxExists(s: set<nat>)
    requires s != {}
    ensures exists m :: m in s && forall x :: x in s ==> x <= m
  {
    var x :| x in s;
    if s != {x} {
      MaxExists(s - {x});
      var m :| m in s - {x} && forall y :: y in s - {x} ==> y <= m;
      var top := if x > m then x else m;
      forall y | y in s ensures y <= top {
        if y != x {
          assert y in s - {x};
        }
      }
      assert top in s;
    } else {
      forall y | y in s ensures y <= x {
        assert y in {x};
      }
    }
  }

  /** The largest element of a non-empty set. */
  function MaxOf(s: set<nat>): (m: nat)
    requires s != {}
    ensures m in s && forall x :: x in s ==> x <= m
  {
    MaxExists(s);
    var m :| m in s && forall x :: x in s ==> x <= m;
    m
  }

  /** The element of a one-element set. */
  function TheOne(s: set<PlayerId>): (x: PlayerId)
    requires |s| == 1
    ensures s == {x}
  {
    var x :| x in s;
    assert |s - {x}| == 0;
    assert s == {x};
    x
  }

  /** Keys of a tally that name a player (the skip key excluded). */
  function Entries(tally: map<PlayerId, nat>): set<PlayerId> {
    tally.Keys - {Skip}
  }

  /** The outcome a tally determines (room.tsx:186-196): nothing when no
      non-skip target has a ballot; a tie when two or more targets share the
      top count (the first two entries of the descending sort are equal);
      otherwise the unique leader. */
  function Decide(tally: map<PlayerId, nat>): (r: Option<VoteResult>)
    ensures r.None? <==> Entries(tally) == {}
    ensures r.Some? ==> (exists t :: t in Entries(tally) && tally[t] == r.value.votes)
    ensures r.Some? ==> forall t :: t in Entries(tally) ==> tally[t] <= r.value.votes
    ensures r.Some? ==> (r.value.isTie <==> r.value.targetId.None?)
    ensures r.Some? ==> (r.value.isTie <==>
      exists a, b :: a in Entries(tally) && b in Entries(tally) && a != b
                     && tally[a] == r.value.votes && tally[b] == r.value.votes)
    ensures r.Some? && r.value.targetId.Some? ==>
      var w := r.value.targetId.value;
      && w in Entries(tally)
      && tally[w] == r.value.votes
      && forall u :: u in Entries(tally) && u != w ==> tally[u] < r.value.votes
  {
    var entries := Entries(tally);
    if entries == {} then None
    else
      var counts := set t | t in entries :: tally[t];
      assert counts != {} by {
        var t0 :| t0 in entries;
        assert tally[t0] in counts;
      }
      var top := MaxOf(counts);
      assert forall u :: u in entries ==> tally[u] <= top by {
        forall u | u in entries ensures tally[u] <= top {
          assert tally[u] in counts;
        }
      }
      var leaders := set t | t in entries && tally[t] == top;
      assert exists t :: t in entries && tally[t] == top;
      var t :| t in entries && tally[t] == top;
      assert t in leaders;
      if |leaders| >= 2 then
        var a := t;
        assert exists b :: b in leaders - {a} by {
          assert |leaders - {a}| >= 1;
        }
        var b :| b in leaders - {a};
        assert a in entries && b in entries && a != b && tally[a] == top && tally[b] == top;
        Some(VoteResult(None, top, true))
      else
        var w := TheOne(leaders);
        assert forall u :: u in entries && u != w ==> tally[u] < top by {
          forall u | u in entries && u != w ensures tally[u] < top {
            assert u !in leaders;
          }
        }
        Some(VoteResult(Some(w), top, false))
  }

  /** The day-vote outcome, stated in terms of ballot counts: no result iff
      every ballot skips (or there are none), a tie with no target iff the
      highest count is shared, otherwise the target with strictly the most
      ballots together with its count. */
  function ComputeVoteResult(votes: map<PlayerId, PlayerId>): (r: Option<VoteResult>)
    ensures r.None? <==> Candidates(votes) == {}
    ensures r.Some? ==> (exists t :: t in Candidates(votes) && Count(votes, t) == r.value.votes)
    ensures r.Some? ==> forall t :: t in Candidates(votes) ==> Count(votes, t) <= r.value.votes
    ensures r.Some? ==> (r.value.isTie <==> r.value.targetId.None?)
    ensures r.Some? ==> (r.value.isTie <==>
      exists a, b :: a in Candidates(votes) && b in Candidates(votes) && a != b
                     && Count(votes, a) == r.value.votes && Count(votes, b) == r.value.votes)
    ensures r.Some? && r.value.targetId.Some? ==>
      var w := r.value.targetId.value;
      && w in Candidates(votes)
      && Count(votes, w) == r.value.votes
      && forall u :: u in Candidates(votes) && u != w ==> Count(votes, u) < r.value.votes
  {
    var tally := CountMap(votes);
    assert Entries(tally) == Candidates(votes);
    Decide(tally)
  }

  // ---------------------------------------------------------------------------
  // The tally loop over the map's values, in iteration order
  // ---------------------------------------------------------------------------

  /** `Object.values(votes)` when the keys are iterated in `order`. */
  function Ballots(votes: map<PlayerId, PlayerId>, order: seq<PlayerId>): (b: seq<PlayerId>)
    requires forall k :: k in order ==> k in votes
    ensures |b| == |order|
  {
    if order == [] then [] else Ballots(votes, order[..|order| - 1]) + [votes[order[|order| - 1]]]
  }

  /** One step of the tally loop: `tally[t] = (tally[t] ?? 0) + 1`. */
  function Bump(m: map<PlayerId, nat>, t: PlayerId): map<PlayerId, nat> {
    m[t := (if t in m then m[t] else 0) + 1]
  }

  /** The tally loop: one increment of `tally[target]` per ballot, in order. */
  function TallyOf(ballots: seq<PlayerId>): map<PlayerId, nat> {
    if ballots == [] then map[]
    else Bump(TallyOf(ballots[..|ballots| - 1]), ballots[|ballots| - 1])
  }

  /** The source's computation for one particular iteration order. */
  function ComputeVoteResultInOrder(votes: map<PlayerId, PlayerId>, order: seq<PlayerId>): Option<VoteResult>
    requires Enumerates(order, votes)
  {
    Decide(TallyOf(Ballots(votes, order)))
  }

  lemma {:induction false} BallotsAgree(votes: map<PlayerId, PlayerId>, votes': map<PlayerId, PlayerId>, order: seq<PlayerId>)
    requires forall k :: k in order ==> k in votes && k in votes' && votes[k] == votes'[k]
    ensures Ballots(votes, order) == Ballots(votes', order)
  {
    if order != [] {
      BallotsAgree(votes, votes', order[..|order| - 1]);
    }
  }

  /** Removing one voter removes exactly that voter's ballot from the counts. */
  lemma CountStep(votes: map<PlayerId, PlayerId>, k: PlayerId, t: PlayerId)
    requires k in votes
    ensures Count(votes, t) == Count(votes - {k}, t) + (if votes[k] == t then 1 else 0)
  {
    var rest := votes - {k};
    var s := VotersFor(votes, t);
    var s' := VotersFor(rest, t);
    assert k !in s';
    if votes[k] == t {
      forall v | v in s ensures v in s' + {k} {
        if v != k {
          assert v in rest;
        }
      }
      assert s == s' + {k};
      assert |s' + {k}| == |s'| + 1;
    } else {
      forall v | v in s ensures v in s' {
        assert v != k;
        assert v in rest;
      }
      assert s == s';
    }
  }

  /** The values cast after removing one voter, plus that voter's ballot. */
  lemma ValuesStep(votes: map<PlayerId, PlayerId>, k: PlayerId)
    requires k in votes
    ensures votes.Values == (votes - {k}).Values + {votes[k]}
  {
    var rest := votes - {k};
    forall t | t in votes.Values ensures t in rest.Values + {votes[k]} {
      var v :| v in votes && votes[v] == t;
      if v != k {
        assert rest[v] == t;
      }
    }
    forall t | t in rest.Values ensures t in votes.Values {
      var v :| v in rest && rest[v] == t;
      assert votes[v] == t;
    }
  }

  /** The count map grows by one bump when a voter is added back. */
  lemma CountMapStep(votes: map<PlayerId, PlayerId>, k: PlayerId)
    requires k in votes
    ensures CountMap(votes) == Bump(CountMap(votes - {k}), votes[k])
  {
    var rest := votes - {k};
    var before := CountMap(rest);
    var after := Bump(before, votes[k]);
    ValuesStep(votes, k);
    assert CountMap(votes).Keys == after.Keys;
    forall t | t in votes.Values
      ensures CountMap(votes)[t] == after[t]
    {
      CountStep(votes, k, t);
      if t !in rest.Values {
        assert VotersFor(rest, t) == {};
      }
    }
  }

  /** Dropping the last key of an enumeration enumerates the map without it. */
  lemma EnumeratesFront(votes: map<PlayerId, PlayerId>, order: seq<PlayerId>)
    requires Enumerates(order, votes) && order != []
    ensures Enumerates(order[..|order| - 1], votes - {order[|order| - 1]})
  {
    var n := |order| - 1;
    var k := order[n];
    var front := order[..n];
    assert k !in front by {
      forall i | 0 <= i < n ensures front[i] != k {
        assert order[i] == front[i];
      }
    }
    forall key | key in votes - {k} ensures key in front {
      var i :| 0 <= i < |order| && order[i] == key;
      assert i < n;
      assert front[i] == key;
    }
  }

  /** Iterating the ballot map in any order yields the same tally object. */
  lemma {:induction false} TallyIndependentOfOrder(votes: map<PlayerId, PlayerId>, order: seq<PlayerId>)
    requires Enumerates(order, votes)
    ensures TallyOf(Ballots(votes, order)) == CountMap(votes)
    decreases |order|
  {
    if order == [] {
      assert votes.Keys == {};
      assert votes.Values == {};
    } else {
      var n := |order| - 1;
      var k := order[n];
      var front := order[..n];
      var rest := votes - {k};
      EnumeratesFront(votes, order);
      TallyIndependentOfOrder(rest, front);
      BallotsAgree(votes, rest, front);
      var ballots := Ballots(votes, order);
      assert ballots == Ballots(votes, front) + [votes[k]];
      assert ballots[..|ballots| - 1] == Ballots(votes, front);
      assert TallyOf(ballots) == Bump(CountMap(rest), votes[k]);
      CountMapStep(votes, k);
    }
  }

  /** The vote result does not depend on the iteration order of the ballots:
      every order gives exactly the order-free `ComputeVoteResult`. */
  lemma VoteResultIndependentOfOrder(votes: map<PlayerId, PlayerId>, order: seq<PlayerId>)
    requires Enumerates(order, votes)
    ensures ComputeVoteResultInOrder(votes, order) == ComputeVoteResult(votes)
  {
    TallyIndependentOfOrder(votes, order);
  }

  /** Two iteration orders of the same ballots always agree. */
  lemma AnyTwoOrdersAgree(votes: map<PlayerId, PlayerId>, o1: seq<PlayerId>, o2: seq<PlayerId>)
    requires Enumerates(o1, votes) && Enumerates(o2, votes)
    ensures ComputeVoteResultInOrder(votes, o1) == ComputeVoteResultInOrder(votes, o2)
  {
    VoteResultIndependentOfOrder(votes, o1);
    VoteResultIndependentOfOrder(votes, o2);
  }
}

=== FILE: victory.dfy ===
/** The villager/werewolf win rule over the living players. */
module Victory {
  import opened Wrappers
  import opened Model

  /** A decided game: who won and the reason shown to everyone. */
  datatype Verdict = Verdict(winner: Winner, reason: string)

  const AllWerewolvesGone: string := "All werewolves are eliminated."
  const WerewolfMajority: string := "Werewolves have majority control."
  const FoolVotedOut: string := "The Fool was voted out and wins instantly."

  /** The living players. */
  function Alive(players: map<PlayerId, Player>): set<PlayerId> {
    set id | id in players && players[id].isAlive
  }

  /** The living werewolves. */
  function AliveWerewolves(players: map<PlayerId, Player>): set<PlayerId> {
    set id | id in players && players[id].isAlive && players[id].role == Some(Werewolf)
  }

  /** The living players who are not werewolves (a missing role counts here). */
  function AliveOthers(players: map<PlayerId, Player>): set<PlayerId> {
    set id | id in players && players[id].isAlive && players[id].role != Some(Werewolf)
  }

  /** The living players split into werewolves and the rest. */
  lemma AliveSplit(players: map<PlayerId, Player>)
    ensures Alive(players) == AliveWerewolves(players) + AliveOthers(players)
    ensures AliveWerewolves(players) !! AliveOthers(players)
    ensures |Alive(players)| == |AliveWerewolves(players)| + |AliveOthers(players)|
  {
  }

  /** Someone is alive iff the living set is non-empty. */
  lemma SomeoneAlive(players: map<PlayerId, Player>)
    ensures |Alive(players)| > 0 <==> exists id :: IsAliveIn(players, id)
  {
    if |Alive(players)| > 0 {
      var id :| id in Alive(players);
      assert IsAliveIn(players, id);
    }
    if exists id :: IsAliveIn(players, id) {
      var id :| IsAliveIn(players, id);
      assert id in Alive(players);
    }
  }

  /** A werewolf is alive iff the living-werewolf set is non-empty. */
  lemma SomeWerewolfAlive(players: map<PlayerId, Player>)
    ensures |AliveWerewolves(players)| > 0 <==> exists id :: IsAliveIn(players, id) && HasRole(players, id, Werewolf)
  {
    if |AliveWerewolves(players)| > 0 {
      var id :| id in AliveWerewolves(players);
      assert IsAliveIn(players, id) && HasRole(players, id, Werewolf);
    }
    if exists id :: IsAliveIn(players, id) && HasRole(players, id, Werewolf) {
      var id :| IsAliveIn(players, id) && HasRole(players, id, Werewolf);
      assert id in AliveWerewolves(players);
    }
  }

  /** The win rule (room.tsx:288-299): villagers win once living players
      remain and none is a werewolf; werewolves win once at least one is alive
      and they are at least as many as everyone else alive; otherwise the
      game goes on, and in particular it does when nobody is alive. */
  function ComputeWinner(players: map<PlayerId, Player>): (r: Option<Verdict>)
    ensures r == Some(Verdict(Villagers, AllWerewolvesGone)) <==>
      (exists id :: IsAliveIn(players, id)) && (forall id :: IsAliveIn(players, id) ==> !HasRole(players, id, Werewolf))
    ensures r == Some(Verdict(Werewolves, WerewolfMajority)) <==>
      (exists id :: IsAliveIn(players, id) && HasRole(players, id, Werewolf))
      && |AliveWerewolves(players)| >= |AliveOthers(players)|
    ensures r.None? <==>
      (forall id :: !IsAliveIn(players, id))
      || ((exists id :: IsAliveIn(players, id) && HasRole(players, id, Werewolf))
          && |AliveWerewolves(players)| < |AliveOthers(players)|)
    ensures r.Some? ==> r.value.winner != TheFool
  {
    var alive := |Alive(players)|;
    var wolves := |AliveWerewolves(players)|;
    AliveSplit(players);
    SomeoneAlive(players);
    SomeWerewolfAlive(players);
    var villagers := alive - wolves;
    if wolves == 0 && alive > 0 then
      Some(Verdict(Villagers, AllWerewolvesGone))
    else if wolves >= villagers && alive > 0 then
      Some(Verdict(Werewolves, WerewolfMajority))
    else
      None
  }
}

=== FILE: view.dfy ===
/** The game screen's pure helpers and the predicates that decide what a
    player may send: avatar hashing, the player ordering, the start gate for
    custom setups, chat permission and visibility, and the mapping from a
    click on a player card to the request it issues. */
module View {
  import opened Wrappers
  import opened Model
  import opened Deck
  import opened Tally
  import opened Night
  import opened Engine
  import opened Intents

  // ---------------------------------------------------------------------------
  // Avatars
  // ---------------------------------------------------------------------------

  /** The element chosen by a seed, cycling through the array
      (GamePage.tsx:33-35). */
  function PickFrom<T>(arr: seq<T>, seed: nat): (x: T)
    requires |arr| > 0
    ensures x in arr
  {
    arr[seed % |arr|]
  }

  /** The bound every avatar hash stays under. */
  const HashModulus: nat := 10000

  /** The avatar hash of a prefix: `hash = (hash * 31 + code) % 10000` per
      character (GamePage.tsx:37-43). */
  function HashOf(s: string): nat {
    if s == [] then 0 else (HashOf(s[..|s| - 1]) * 31 + s[|s| - 1] as int) % HashModulus
  }

  /** The avatar hash computed by the source's loop; it always lies in
      [0, 10000) and is the hash of the whole id. */
  method AvatarSeed(id: string) returns (hash: nat)
    ensures hash < HashModulus
    ensures hash == HashOf(id)
  {
    hash := 0;
    var i := 0;
    while i < |id|
      invariant 0 <= i <= |id|
      invariant hash == HashOf(id[..i])
      invariant hash < HashModulus
    {
      assert id[..i + 1][..i] == id[..i];
      hash := (hash * 31 + id[i] as int) % HashModulus;
      i := i + 1;
    }
    assert id[..|id|] == id;
  }

  /** Appending a character folds it into the hash of the prefix. */
  lemma HashOfAppend(s: string, c: char)
    ensures HashOf(s + [c]) == (HashOf(s) * 31 + c as int) % HashModulus
    ensures HashOf(s + [c]) < HashModulus
  {
  }

  // ---------------------------------------------------------------------------
  // Player ordering
  // ---------------------------------------------------------------------------

  /** Strict lexicographic order on code points (the ordering used for ids). */
  predicate StrLess(a: string, b: string)
    decreases |a|
  {
    if a == [] then b != []
    else if b == [] then false
    else if a[0] != b[0] then a[0] < b[0]
    else StrLess(a[1..], b[1..])
  }

  lemma {:induction false} StrLessIrreflexive(a: string)
    ensures !StrLess(a, a)
    decreases |a|
  {
    if a != [] {
      StrLessIrreflexive(a[1..]);
    }
  }

  lemma {:induction false} StrLessTotal(a: string, b: string)
    ensures a == b || StrLess(a, b) || StrLess(b, a)
    decreases |a|
  {
    if a != [] && b != [] && a[0] == b[0] {
      StrLessTotal(a[1..], b[1..]);
      if a[1..] == b[1..] {
        assert a == [a[0]] + a[1..] && b == [b[0]] + b[1..];
      }
    }
  }

  lemma {:induction false} StrLessTransitive(a: string, b: string, c: string)
    requires StrLess(a, b) && StrLess(b, c)
    ensures StrLess(a, c)
    decreases |a|
  {
    if a != [] && b != [] && c != [] && a[0] == b[0] && b[0] == c[0] {
      StrLessTransitive(a[1..], b[1..], c[1..]);
    }
  }

  /** True iff `a` sorts strictly before `b`: earlier joiners first, ties
      broken by id (GamePage.tsx:202-208). */
  predicate Before(players: map<PlayerId, Player>, a: PlayerId, b: PlayerId)
    requires a in players && b in players
  {
    players[a].joinedAt < players[b].joinedAt
    || (players[a].joinedAt == players[b].joinedAt && StrLess(a, b))
  }

  lemma BeforeTotal(players: map<PlayerId, Player>, a: PlayerId, b: PlayerId)
    requires a in players && b in players
    ensures a == b || Before(players, a, b) || Before(players, b, a)
    ensures !(Before(players, a, b) && Before(players, b, a))
  {
    StrLessTotal(a, b);
    if Before(players, a, b) && Before(players, b, a) {
      StrLessTransitive(a, b, a);
      StrLessIrreflexive(a);
    }
  }

  lemma BeforeTransitive(players: map<PlayerId, Player>, a: PlayerId, b: PlayerId, c: PlayerId)
    requires a in players && b in players && c in players
    requires Before(players, a, b) && Before(players, b, c)
    ensures Before(players, a, c)
  {
    if players[a].joinedAt == players[b].joinedAt == players[c].joinedAt {
      StrLessTransitive(a, b, c);
    }
  }

  /** Every id of `s` names a player. */
  predicate AllIn(players: map<PlayerId, Player>, s: seq<PlayerId>) {
    forall i :: 0 <= i < |s| ==> s[i] in players
  }

  /** No later element sorts strictly before an earlier one. */
  predicate SortedBy(players: map<PlayerId, Player>, s: seq<PlayerId>)
    requires AllIn(players, s)
  {
    forall i, j :: 0 <= i < j < |s| ==> !Before(players, s[j], s[i])
  }

  /** Prepending an element that nothing in a sorted list precedes keeps it
      sorted. */
  lemma ConsSorted(players: map<PlayerId, Player>, h: PlayerId, t: seq<PlayerId>)
    requires h in players && AllIn(players, t) && SortedBy(players, t)
    requires forall k :: 0 <= k < |t| ==> !Before(players, t[k], h)
    ensures AllIn(players, [h] + t) && SortedBy(players, [h] + t)
  {
    var r := [h] + t;
    forall i, j | 0 <= i < j < |r| ensures !Before(players, r[j], r[i]) {
      assert r[j] == t[j - 1];
      if i > 0 {
        assert r[i] == t[i - 1];
      }
    }
  }

  /** If the head of a sorted list does not precede `x`, nothing in it does. */
  lemma NoneBefore(players: map<PlayerId, Player>, s: seq<PlayerId>, x: PlayerId)
    requires x in players && AllIn(players, s) && SortedBy(players, s)
    requires s != [] && !Before(players, s[0], x)
    ensures forall k :: 0 <= k < |s| ==> !Before(players, s[k], x)
  {
    forall k | 0 < k < |s| ensures !Before(players, s[k], x) {
      if Before(players, s[k], x) {
        assert !Before(players, s[k], s[0]);
        BeforeTotal(players, s[0], s[k]);
        BeforeTransitive(players, s[0], s[k], x);
      }
    }
  }

  /** Elements of a multiset-equal sequence: each comes from the other. */
  lemma MembersOf(s: seq<PlayerId>, t: seq<PlayerId>, x: PlayerId)
    requires multiset(s) == multiset(t) + multiset{x}
    ensures forall k :: 0 <= k < |s| ==> s[k] == x || s[k] in t
  {
    forall k | 0 <= k < |s| ensures s[k] == x || s[k] in t {
      assert s[k] in multiset(s);
    }
  }

  /** `x` placed into the sorted `s` after everything that sorts before it. */
  function Insert(players: map<PlayerId, Player>, x: PlayerId, s: seq<PlayerId>): (r: seq<PlayerId>)
    requires x in players && AllIn(players, s) && SortedBy(players, s)
    ensures AllIn(players, r) && SortedBy(players, r)
    ensures multiset(r) == multiset(s) + multiset{x}
    decreases |s|
  {
    if s == [] then [x]
    else if Before(players, s[0], x) then
      assert SortedBy(players, s[1..]);
      var tail := Insert(players, x, s[1..]);
      assert s == [s[0]] + s[1..];
      MembersOf(tail, s[1..], x);
      assert forall k :: 0 <= k < |tail| ==> !Before(players, tail[k], s[0]) by {
        forall k | 0 <= k < |tail| ensures !Before(players, tail[k], s[0]) {
          if tail[k] == x {
            BeforeTotal(players, s[0], x);
          } else {
            var m :| 0 <= m < |s[1..]| && s[1..][m] == tail[k];
            assert s[m + 1] == tail[k];
          }
        }
      }
      ConsSorted(players, s[0], tail);
      [s[0]] + tail
    else
      NoneBefore(players, s, x);
      ConsSorted(players, x, s);
      [x] + s
  }

  /** The players of `order` sorted by join time, then id. */
  function SortPlayers(players: map<PlayerId, Player>, order: seq<PlayerId>): (r: seq<PlayerId>)
    requires AllIn(players, order)
    ensures AllIn(players, r) && SortedBy(players, r)
    ensures multiset(r) == multiset(order)
  {
    if order == [] then []
    else
      var r := Insert(players, order[|order| - 1], SortPlayers(players, order[..|order| - 1]));
      assert order == order[..|order| - 1] + [order[|order| - 1]];
      r
  }

  /** The player list as shown (GamePage.tsx:202-208): every player exactly
      once, earliest joiner first, equal join times ordered by id. */
  function OrderedPlayers(room: Room, order: seq<PlayerId>): (r: seq<PlayerId>)
    requires Enumerates(order, room.players)
    ensures multiset(r) == multiset(order)
    ensures forall id :: id in r <==> id in room.players
    ensures AllIn(room.players, r) && SortedBy(room.players, r)
  {
    var r := SortPlayers(room.players, order);
    assert forall id :: id in r <==> id in multiset(r);
    assert forall id :: id in order <==> id in multiset(order);
    r
  }

  /** Two non-empty sorted arrangements of the same players start alike. */
  lemma SortedHeadsAgree(players: map<PlayerId, Player>, a: seq<PlayerId>, b: seq<PlayerId>)
    requires AllIn(players, a) && AllIn(players, b)
    requires SortedBy(players, a) && SortedBy(players, b)
    requires multiset(a) == multiset(b) && a != [] && b != []
    ensures a[0] == b[0]
  {
    if a[0] != b[0] {
      assert a[0] in multiset(b);
      var j :| 0 <= j < |b| && b[j] == a[0];
      assert b[0] in multiset(a);
      var i :| 0 <= i < |a| && a[i] == b[0];
      assert !Before(players, b[j], b[0]);
      assert !Before(players, a[i], a[0]);
      BeforeTotal(players, a[0], b[0]);
    }
  }

  /** Dropping equal heads from multiset-equal sequences leaves multiset-equal tails. */
  lemma TailsAgree(a: seq<PlayerId>, b: seq<PlayerId>)
    requires a != [] && b != [] && a[0] == b[0] && multiset(a) == multiset(b)
    ensures multiset(a[1..]) == multiset(b[1..])
  {
    assert a == [a[0]] + a[1..];
    assert b == [b[0]] + b[1..];
    assert multiset(a[1..]) == multiset(a) - multiset{a[0]};
    assert multiset(b[1..]) == multiset(b) - multiset{b[0]};
  }

  /** The shown order does not depend on the order the map was read in:
      two sorted arrangements of the same players are the same sequence. */
  lemma {:induction false} SortedUnique(players: map<PlayerId, Player>, a: seq<PlayerId>, b: seq<PlayerId>)
    requires AllIn(players, a) && AllIn(players, b)
    requires SortedBy(players, a) && SortedBy(players, b)
    requires multiset(a) == multiset(b)
    ensures a == b
    decreases |a|
  {
    assert |a| == |b| by {
      assert |multiset(a)| == |multiset(b)|;
    }
    if a != [] {
      SortedHeadsAgree(players, a, b);
      TailsAgree(a, b);
      assert SortedBy(players, a[1..]) && SortedBy(players, b[1..]);
      SortedUnique(players, a[1..], b[1..]);
      assert a == [a[0]] + a[1..];
      assert b == [b[0]] + b[1..];
    }
  }

  /** Any two readings of the player map give the same displayed list. */
  lemma OrderedPlayersIndependentOfOrder(room: Room, o1: seq<PlayerId>, o2: seq<PlayerId>)
    requires Enumerates(o1, room.players) && Enumerates(o2, room.players)
    ensures OrderedPlayers(room, o1) == OrderedPlayers(room, o2)
  {
    var r1 := OrderedPlayers(room, o1);
    var r2 := OrderedPlayers(room, o2);
    DistinctMultiset(o1, o2);
    SortedUnique(room.players, r1, r2);
  }

  /** Two enumerations of the same keys hold the same multiset. */
  lemma DistinctMultiset(o1: seq<PlayerId>, o2: seq<PlayerId>)
    requires Distinct(o1) && Distinct(o2)
    requires forall x :: x in o1 <==> x in o2
    ensures multiset(o1) == multiset(o2)
  {
    forall x ensures multiset(o1)[x] == multiset(o2)[x] {
      DistinctCount(o1, x);
      DistinctCount(o2, x);
    }
  }

  /** In a sequence without repeats an element occurs once or not at all. */
  lemma {:induction false} DistinctCount(s: seq<PlayerId>, x: PlayerId)
    requires Distinct(s)
    ensures multiset(s)[x] == if x in s then 1 else 0
    decreases |s|
  {
    if s != [] {
      assert s == [s[0]] + s[1..];
      assert Distinct(s[1..]) by {
        forall i, j | 0 <= i < j < |s[1..]| ensures s[1..][i] != s[1..][j] {
          assert s[1..][i] == s[i + 1] && s[1..][j] == s[j + 1];
        }
      }
      DistinctCount(s[1..], x);
      if s[0] == x {
        assert x !in s[1..] by {
          forall k | 0 <= k < |s[1..]| ensures s[1..][k] != x {
            assert s[1..][k] == s[k + 1];
          }
        }
      }
    }
  }

  // ---------------------------------------------------------------------------
  // Start gate
  // ---------------------------------------------------------------------------

  /** The start button is enabled in classic mode, or in custom mode when the
      normalised counts include a werewolf and total the player count
      (GamePage.tsx:214-226). */
  predicate CanStartWithCurrentSetup(room: Room, playerCount: nat) {
    var counts := GetCustomRoleCounts(room.customRoles);
    Mode(room) == Classic || (CountOf(counts, Werewolf) > 0 && TotalOf(counts, RoleOrder) == playerCount)
  }

  /** The start gate shown to the host is exactly the engine's deck check:
      enabled iff a start by a ready room of that size would get a deck. */
  lemma StartGateAgreesWithDeck(room: Room, n: nat, draws: seq<nat>)
    requires n >= 1
    ensures CanStartWithCurrentSetup(room, n) <==> DeckFor(room, n, draws).Ok?
  {
    if Mode(room) == Custom {
      var d := BuildCustomRoleDeck(n, GetCustomRoleCounts(room.customRoles), draws);
      var counts := GetCustomRoleCounts(room.customRoles);
      assert d.Err? <==> (TotalOf(counts, RoleOrder) != n || CountOf(counts, Werewolf) < 1);
    }
  }

  // ---------------------------------------------------------------------------
  // Chat
  // ---------------------------------------------------------------------------

  /** The chat box is enabled for a living player, and at night only for a
      werewolf (GamePage.tsx:238). */
  predicate CanChat(room: Room, viewer: PlayerId) {
    IsAliveIn(room.players, viewer) && (room.status != Night || HasRole(room.players, viewer, Werewolf))
  }

  /** For a non-blank message the engine posts it iff the chat box is
      enabled and the viewer is not silenced for today; the silence is the
      one rule the box does not show. */
  lemma CanChatAgreesWithSendChat(room: Room, viewer: PlayerId, message: string, messageId: string, now: int)
    requires Trim(message) != []
    ensures SendChat(room, viewer, message, messageId, now).Applied? <==> CanChat(room, viewer) && !MutedNow(room, viewer)
  {
  }

  /** True iff a message is shown to everyone (a missing audience counts). */
  predicate Public(m: ChatMessage) {
    m.audience.GetOr(Everyone) == Everyone
  }

  /** The messages a viewer sees, in order (GamePage.tsx:242-244): all of
      them for a werewolf, otherwise only the public ones. */
  function VisibleMessages(chat: seq<ChatMessage>, viewerIsWerewolf: bool): (r: seq<ChatMessage>)
    ensures viewerIsWerewolf ==> r == chat
    ensures (forall i :: 0 <= i < |chat| ==> Public(chat[i])) ==> r == chat
    ensures forall m :: m in r <==> m in chat && (viewerIsWerewolf || Public(m))
    ensures |r| <= |chat|
  {
    if chat == [] then []
    else
      var rest := VisibleMessages(chat[..|chat| - 1], viewerIsWerewolf);
      var m := chat[|chat| - 1];
      assert chat == chat[..|chat| - 1] + [m];
      if viewerIsWerewolf || Public(m) then rest + [m] else rest
  }

  /** Appending a message to the chat appends it to a viewer's feed exactly
      when the viewer may see it; everything already shown stays, in order.
      With the empty chat as the base case this fixes the feed as the
      order-preserving filter of the chat. */
  lemma VisibleMessagesAppend(chat: seq<ChatMessage>, m: ChatMessage, viewerIsWerewolf: bool)
    ensures VisibleMessages(chat + [m], viewerIsWerewolf)
      == VisibleMessages(chat, viewerIsWerewolf) + (if viewerIsWerewolf || Public(m) then [m] else [])
  {
    assert (chat + [m])[..|chat + [m]| - 1] == chat;
  }

  /** A message posted at night is hidden from every non-werewolf viewer. */
  lemma NightChatHidden(room: Room, actor: PlayerId, message: string, messageId: string, now: int)
    requires room.status == Night
    requires SendChat(room, actor, message, messageId, now).Applied?
    ensures var chat := SendChat(room, actor, message, messageId, now).room.chat;
      && chat[|chat| - 1] in VisibleMessages(chat, true)
      && chat[|chat| - 1] !in VisibleMessages(chat, false)
  {
  }

  // ---------------------------------------------------------------------------
  // Player-card clicks
  // ---------------------------------------------------------------------------

  /** The request a click on a player card issues. */
  datatype ClickIntent = NoRequest | CastVote(target: PlayerId) | NightAction(update: map<NightKey, PlayerId>) | HunterShot(target: PlayerId)

  /** True iff the viewer's cards respond to clicks (GamePage.tsx:382-391).
      The night check reads every step but the witch's as the main step. */
  predicate CanSelect(room: Room, viewer: PlayerId) {
    if room.status == Voting then IsAliveIn(room.players, viewer)
    else if room.status == Night then
      && room.nightStep != Some(WitchStep)
      && IsAliveIn(room.players, viewer)
      && (HasRole(room.players, viewer, Werewolf) || HasRole(room.players, viewer, Bodyguard)
          || HasRole(room.players, viewer, Seer))
    else room.hunterPending == Some(viewer)
  }

  /** The click handler (GamePage.tsx:398-422). */
  function CardClick(room: Room, viewer: PlayerId, card: PlayerId): (c: ClickIntent)
    requires card in room.players
    ensures !CanSelect(room, viewer) || !room.players[card].isAlive ==> c == NoRequest
    ensures room.status == Voting && CanSelect(room, viewer) && room.players[card].isAlive ==>
      c == CastVote(if card == viewer then Skip else card)
    ensures (room.status == Night && HasRole(room.players, viewer, Bodyguard)
             && room.bodyguardLastProtectedId == Some(card)) ==> c == NoRequest
    ensures (room.status == Night && CanSelect(room, viewer) && room.players[card].isAlive
             && HasRole(room.players, viewer, Werewolf)) ==>
      c == (if card == viewer then NoRequest else NightAction(map[WerewolfTarget := card]))
    ensures (room.status == Night && CanSelect(room, viewer) && room.players[card].isAlive
             && HasRole(room.players, viewer, Bodyguard) && room.bodyguardLastProtectedId != Some(card)) ==>
      c == NightAction(map[BodyguardProtect := card])
    ensures (room.status == Night && CanSelect(room, viewer) && room.players[card].isAlive
             && HasRole(room.players, viewer, Seer)) ==>
      c == (if card == viewer then NoRequest else NightAction(map[SeerInspect := card]))
    ensures (room.status != Voting && room.status != Night && CanSelect(room, viewer) && room.players[card].isAlive) ==>
      c == (if card == viewer then NoRequest else HunterShot(card))
    ensures c.NightAction? ==> room.status == Night && |c.update| == 1
    ensures c.HunterShot? ==> c.target == card && card != viewer && room.hunterPending == Some(viewer)
  {
    if !CanSelect(room, viewer) || !room.players[card].isAlive then NoRequest
    else if room.status == Voting then CastVote(if card == viewer then Skip else card)
    else if room.status == Night then
      var role := room.players[viewer].role;
      if role == Some(Werewolf) then
        if card != viewer then NightAction(map[WerewolfTarget := card]) else NoRequest
      else if role == Some(Bodyguard) then
        if room.bodyguardLastProtectedId == Some(card) then NoRequest
        else NightAction(map[BodyguardProtect := card])
      else if role == Some(Seer) && card != viewer then NightAction(map[SeerInspect := card])
      else NoRequest
    else if card != viewer then HunterShot(card)
    else NoRequest
  }

  /** What the engine makes of a card click: a vote is always recorded, a
      night action is recorded whenever the room is really in its main step
      (the view also enables clicks in the cupid step, where the engine
      ignores them), and a shot by a seated hunter always lands. */
  lemma ClickAgreesWithEngine(room: Room, viewer: PlayerId, card: PlayerId)
    requires card in room.players
    ensures CardClick(room, viewer, card).CastVote? ==>
      SetVote(room, viewer, CardClick(room, viewer, card).target).Applied?
    ensures CardClick(room, viewer, card).NightAction? ==>
      (SetNightAction(room, viewer, CardClick(room, viewer, card).update).Applied? <==> room.nightStep == Some(MainStep))
    ensures CardClick(room, viewer, card).HunterShot? && viewer in room.players ==>
      SendHunterShot(room, viewer, card).Applied?
  {
    var c := CardClick(room, viewer, card);
    if c.NightAction? {
      var role := RoleOf(room.players[viewer]);
      var e := Permitted(c.update, role);
      assert e == c.update;
    }
  }
}

=== FILE: wrappers.dfy ===
/** Failure-compatible wrappers used across the model: `Option` for the
    source's optional (possibly deleted) fields, `Result` for operations that
    either produce a value or report a validation error. */
module Wrappers {

  /** A value that may be absent, as an optional document field is. */
  datatype Option<+T> = None | Some(value: T) {

    /** The value, or `default` when absent (the `??` operator). */
    function GetOr(default: T): T {
      match this
      case Some(v) => v
      case None => default
    }
  }

  /** Either a computed value or the error that prevented it. */
  datatype Result<+T, +E> = Ok(value: T) | Err(error: E)
}
